=== FILE: README.md ===
# Helpdesk bridge for a community messenger — Dafny model

This project models the decision core of a helpdesk that turns messages sent
to a VK community into support tickets. Staff answer those tickets from a web
back office. The model covers three parts:

- **Inbound path.** `handle_message_new` takes a `message_new` event. It finds
  the sender's live ticket (status `open`, `answered` or `waiting`) for that
  community, or opens a new `open` ticket whose subject comes from
  `extract_subject`. It then appends an unread user message and applies the
  inbound status rule.
- **Staff path.** `ticket_detail` has five mutually exclusive POST actions:
  reply, status, assign to me, tags and priority. After any of them, or on a
  plain GET, it marks every user message of the ticket read. The path also
  covers `bulk_action` on a selection of tickets and the counters of
  `get_unread_counts`.
- **Dispatch.** `vk_callback`: an undecodable body gets 400 or 500. A
  `confirmation` event gets the configured token. Then comes the
  shared-secret check, then handler lookup, and otherwise the literal
  acknowledgement `ok`.

The database is an immutable `Store`:

- the registered community groups;
- the existing tag ids;
- the tickets, as a sequence in insertion order;
- the messages, as a sequence in insertion order. Each message holds the
  position of its ticket.

Every operation is a pure function from a store to a store. The outside world
enters as parameters:

- the profile lookup is `profile: Option<VkProfile>`;
- the outcome of sending a staff reply is `sent: bool`;
- the clock is `now: nat`;
- the identifier the database gives a new ticket is `newId`.

Modules:

- `Text`: Python's `str.strip`, `split('\n')[0]` and `str(int)`.
- `Models`: records, statuses, the active-ticket query, lookup by id, and
  unread and status counts.
- `EventHandlers`: subject extraction, display names and
  `handle_message_new`.
- `Views`: `ticket_detail`, `bulk_action` and `get_unread_counts`.
- `Callback`: `vk_callback`.

The model follows the code, including where the code departs from the
behaviour such a bridge evidently aims for:

- The subject fallback is `Без темы`, not an English placeholder.
- An inbound message never reopens a closed ticket. The query only finds live
  tickets, so a closed ticket is left alone and a new ticket is opened. The
  `closed → open` branch of `ApplyInbound` is therefore unreachable from
  `HandleMessageNew`.
- `closed_at` is not kept in step with the status. A staff reply on a
  `closed` ticket makes it `answered` and keeps `closed_at`. An explicit
  status change away from `closed` keeps `closed_at` too. No staff path
  ever clears it.
- The status form and the bulk status action store any string verbatim. That
  is why `Status` has an `Unlisted(name)` case.

## Model

| member | source | states |
|---|---|---|
| Text.Strip | project/servicedesk/event_handlers.py:75 | The result has no whitespace at either end, is no longer than the input, and is empty exactly when the input is all whitespace. |
| Text.StripOfPadded | project/servicedesk/views.py:154 | For any whitespace run, any trimmed core and any whitespace run, stripping their concatenation gives back exactly the core. This characterises `strip` independently of its definition. |
| Text.FirstLineBeforeNewline | project/servicedesk/event_handlers.py:75 | For any line without a line feed, the first line of `line + "\n" + rest` is that line, whatever follows. |
| Text.FirstLine | project/servicedesk/event_handlers.py:75 | The first line is a prefix of the text with no line feed in it. It stops at the first line feed, or runs to the end of the text when there is none. |
| Text.NatToDecimal | project/servicedesk/event_handlers.py:128 | The rendering is all digits with no leading zero, and reading it back as a decimal numeral gives the original number. |
| Text.IntToDecimal | project/servicedesk/event_handlers.py:128 | A non-negative integer renders as its decimal digits with no leading zero, reading back as the integer. A negative one renders as a minus sign followed by the digits of its magnitude. |
| Text.IntToDecimalInjective | project/servicedesk/event_handlers.py:128 | Distinct integers render as distinct decimal strings. |
| Models.ParseStatus | project/servicedesk/views.py:186-188 | Any stored status string reads back as a valid status whose name is that same string. |
| Models.LatestActiveIn | project/servicedesk/event_handlers.py:30-34 | Over the first `n` tickets the query finds nothing exactly when no ticket of the pair is live. Otherwise it returns a live ticket of the pair created no earlier than any other live ticket of the pair. |
| Models.LatestActive | project/servicedesk/event_handlers.py:30-34 | Over the whole ticket list: no answer if and only if the pair has no live ticket; otherwise the latest-created live ticket of the pair. |
| Models.Locate | project/servicedesk/views.py:149 | The lookup is `Missing` exactly when no ticket has the id, and `At(k)` exactly when one ticket has it, namely the `k`-th. It is `Ambiguous` exactly when two different tickets share the id. |
| Models.TotalUnread | project/servicedesk/views.py:263 | The count of user messages nobody has read is at most the number of messages, and is zero exactly when every message is from staff or already read. |
| Models.UnreadFor | project/servicedesk/tests.py:157-175 | A ticket's unread count never exceeds the global total, and is zero exactly when each of its messages is from staff or read. |
| Models.TotalUnreadIsSumPerTicket | project/servicedesk/views.py:263 | When every message belongs to one of the first `n` tickets, the global unread total equals the sum of the per-ticket unread counts. No message is lost or counted twice. |
| Models.UnreadAppend | project/servicedesk/tests.py:165-175 | Adding one message raises the global count, and that ticket's count, by one exactly when the message is an unread user message. Every other ticket's count is unchanged. |
| Models.CountStatus | project/servicedesk/views.py:260-262 | The number of tickets in one status is at most the number of tickets, and is zero exactly when no ticket has that status. |
| Models.CountStatusIsCardinality | project/servicedesk/views.py:260-262 | The counter for a status is the size of the set of ticket positions in that status, which is what the status filter selects. |
| Models.CountActive | project/servicedesk/views.py:260-262 | The number of live tickets is at most the number of tickets, and is zero exactly when no ticket is live. |
| Models.ActiveIsSumOfLiveStatuses | project/servicedesk/views.py:260-262 | The three status counters add up to the number of live tickets. |
| EventHandlers.ExtractSubject | project/servicedesk/event_handlers.py:69-78 | The subject is non-empty, at most 100 characters, one line and trimmed. It is `Без темы` when the stripped first line is empty, that line itself when it has 1 to 100 characters, and otherwise the line's first 97 characters followed by `...`, exactly 100 characters. |
| EventHandlers.ExtractSubjectIdempotent | project/servicedesk/event_handlers.py:69-78 | Extracting a subject from a subject gives it back unchanged. |
| EventHandlers.HundredCharLineKept | project/servicedesk/event_handlers.py:76-78 | A trimmed first line of exactly 100 characters is kept whole, whatever lines follow it. |
| EventHandlers.FallbackName | project/servicedesk/event_handlers.py:128 | The fallback name is `Пользователь ` followed by the user id in decimal. |
| EventHandlers.UserName | project/servicedesk/event_handlers.py:119-128 | With a profile, the name is its first name, one space and its last name. Without one, it is the fallback name: `Пользователь ` followed by the user id in decimal. |
| EventHandlers.FallbackNamesDistinct | project/servicedesk/event_handlers.py:128 | Two different users whose profile lookup fails still get different display names. |
| EventHandlers.FindOrCreate | project/servicedesk/event_handlers.py:30-47 | The receiving ticket is always a live ticket of the sender in that group. When one existed, the store is untouched and the receiver is the latest-created one. Otherwise exactly one ticket is appended, with `open` status, the extracted subject, the looked-up or fallback name, `medium` priority, no close time, no admin and no tags. |
| EventHandlers.ApplyInbound | project/servicedesk/event_handlers.py:59-66 | `answered` becomes `waiting`, `open` and `waiting` stay as they are, and `closed` would become `open` with its close time cleared. A live or closed ticket therefore ends `open` or `waiting`. |
| EventHandlers.Deliver | project/servicedesk/event_handlers.py:50-66 | Exactly the given message is appended. The receiving ticket gets the inbound status rule and every other ticket is unchanged. |
| EventHandlers.Receive | project/servicedesk/event_handlers.py:30-66 | A complete event appends one unread user message to its receiving ticket. The receiver belongs to the sender and group and ends `open` or `waiting`. Either it is the pair's latest live ticket, with no ticket created, or it is a single new ticket appended at the end. No other ticket changes. |
| EventHandlers.HandleMessageNew | project/servicedesk/event_handlers.py:15-66 | The handler succeeds exactly when the message object, group id, a registered group, sender and message id are all present. On success the store changes as described for `Receive`. A fault appends no message. The first four faults change nothing, but a missing message id leaves the freshly created ticket behind. |
| EventHandlers.WellFormedAfterTouch | project/servicedesk/event_handlers.py:40-57 | Updating one ticket, possibly a new one at the end, and appending at most one message that points at an existing ticket keep every message pointing at an existing ticket. |
| EventHandlers.HandleMessageNewKeepsWellFormed | project/servicedesk/event_handlers.py:15-66 | On every event, faulty or not, the handler keeps every message pointing at an existing ticket and every status a valid spelling. |
| EventHandlers.HandleKeepsActiveUnique | project/servicedesk/event_handlers.py:30-47 | If a (user, group) pair has at most one live ticket before the event, it has at most one after it, for every pair and every event. |
| EventHandlers.BurstJoins | project/servicedesk/event_handlers.py:30-57 | A run of complete events from a pair whose only live ticket is `n` creates no ticket. Every event becomes a message of `n`, in arrival order, after the unchanged earlier log. |
| EventHandlers.BurstOpensOneTicket | project/servicedesk/event_handlers.py:30-57 | A run of complete events from a pair with no live ticket opens exactly one ticket. Every event of the run becomes a message of that ticket, in arrival order. |
| Views.SelectBranch | project/servicedesk/views.py:153-212 | The chosen action is the first of response, status, assign_to_me, tags and priority present in the form, and every earlier key is absent. It carries that key's submitted value. With none present, no action is taken. |
| Views.StaffReply | project/servicedesk/views.py:153-182 | A blank reply or a failed delivery changes nothing. Otherwise exactly one staff message is appended: already read, authored by the staff member, with the stripped text. The ticket becomes `answered`, is assigned to that staff member and has its update time set. No other ticket changes. |
| Views.ReplyGrows | project/servicedesk/views.py:166-178 | A reply that appends a staff message and changes only its own ticket keeps the earlier log and adds nothing but a staff message of that ticket. |
| Views.ChangeStatusOf | project/servicedesk/views.py:185-191 | An empty value, or one equal to the current status, changes nothing. Any other value becomes the status, with nothing else changed except the close time. The close time is set to now only for `closed`, and a set close time is never cleared. |
| Views.ReplaceTagsOf | project/servicedesk/views.py:201-204 | The ticket's tag set becomes exactly the submitted ids, and nothing else changes. |
| Views.ChangePriorityOf | project/servicedesk/views.py:207-212 | A non-empty value replaces the priority and nothing else; an empty value changes nothing. |
| Views.ApplyBranch | project/servicedesk/views.py:151-212 | A reply is the staff reply. A status change, tag replacement or priority change gives the ticket exactly what `ChangeStatusOf`, `ReplaceTagsOf` or `ChangePriorityOf` computes. Assigning changes only the ticket's admin, and no action changes nothing. Only a reply adds a message, and only a staff message of this ticket. Every action leaves the other tickets alone. |
| Views.MarkUserMessagesRead | project/servicedesk/views.py:215 | Each user message of the ticket becomes read. Staff messages and other tickets' messages stay exactly as they were. |
| Views.MarkReadClearsTicket | project/servicedesk/views.py:215 | After marking, the ticket has no unread message. The global unread total falls by exactly the ticket's previous unread count. |
| Views.StaffMessagesKeepUnread | project/servicedesk/views.py:166-172 | Adding a staff message changes neither the global unread total nor any ticket's unread count. |
| Views.Act | project/servicedesk/views.py:151-212 | A GET changes nothing. A POST performs the action `SelectBranch` picks from its form. A POST without a `response` key adds no message, and a POST with no recognised key changes nothing. Any POST changes only this ticket and adds at most one staff message of it. |
| Views.ViewTicket | project/servicedesk/views.py:151-215 | The tickets are those the POST action leaves. The messages keep the action's count, and any message the action appended is still there unchanged, with this ticket's user messages marked read. So a GET or POST view changes only this ticket. It keeps the earlier messages, except that this ticket's user messages become read, and adds at most one staff message. Afterwards the ticket has no unread message and the global total fell by its former unread count. A GET changes no ticket and adds no message. |
| Views.TicketDetail | project/servicedesk/views.py:147-215 | The view answers 404 exactly when no ticket has the id. It answers the multiple-objects error exactly when two tickets share the id, and it succeeds exactly when one ticket has the id. It then gives the view of that ticket, so the properties of `ViewTicket` hold for it. |
| Views.DetailClosesTicket | project/servicedesk/tests.py:275-288 | Posting `status=closed` to the view of a uniquely identified ticket whose stored status is not `closed` succeeds, leaves the ticket `closed` and sets its close time to now. |
| Views.DetailAssignsStaff | project/servicedesk/tests.py:290-302 | Posting `assign_to_me`, with no `response` or `status` key before it, succeeds and sets the ticket's admin to the requesting staff member, changing nothing else about the ticket. |
| Views.DetailReplacesTags | project/servicedesk/tests.py:304-318 | Posting a tag list, with no earlier key, succeeds and makes the ticket's tags exactly the submitted ids, changing nothing else about the ticket. |
| Views.DetailReply | project/servicedesk/views.py:153-182 | Posting a reply succeeds. When the stripped text is non-empty and delivery succeeds, the ticket becomes `answered`, assigned and updated now, and exactly one read staff message with the stripped text is stored. Otherwise no ticket changes and no message is stored. |
| Views.LeadingKeyDecides | project/servicedesk/views.py:153-212 | Only the first present key of response, status, assign_to_me, tags and priority acts. The view of a form reduced to that key alone is the same as the view of the whole form. |
| Views.SameBranchSameDetail | project/servicedesk/views.py:151-215 | Two forms that select the same action give the same detail-view outcome, on every store and id. |
| Views.ActKeepsValidStatus | project/servicedesk/views.py:151-212 | Every POST action leaves the ticket's status a valid spelling when it was one before. |
| Views.ViewTicketKeepsWellFormed | project/servicedesk/views.py:151-215 | A view keeps every message pointing at an existing ticket and every status a valid spelling. |
| Views.TicketDetailKeepsWellFormed | project/servicedesk/views.py:147-215 | A successful detail view keeps every message pointing at an existing ticket and every status a valid spelling. |
| Views.EditTicket | project/servicedesk/views.py:236-251 | Assigning sets only the admin. A status edit sets the status, and the close time only when the edit carries a stamp. A tag edit adds that one tag and keeps every other tag. No edit touches any other field. |
| Views.BulkEditOf | project/servicedesk/views.py:233-251 | No edit happens exactly when the request is not a POST, the selection or action is empty, the action is unknown, or its status or tag value is missing. `assign_to_me` assigns the requesting staff member. `change_status` sets the submitted status string, with a close-time stamp of now exactly for `closed`. `add_tag` adds the submitted tag. |
| Views.EditSelected | project/servicedesk/views.py:234-251 | Exactly the tickets whose id is in the submitted list are edited; the others are returned unchanged, in place. |
| Views.BulkAction | project/servicedesk/views.py:227-254 | The action fails, with 404, exactly when it adds a tag id that does not exist. Unselected tickets never change. `assign_to_me` sets only the admin of the selected tickets. `change_status` sets their status to the valid status spelled by the submitted string, and sets the close time only for `closed`. `add_tag` inserts the tag into each selected ticket's set. An empty status or tag value, an unknown action or an empty selection changes nothing. |
| Views.BulkActionKeepsWellFormed | project/servicedesk/views.py:227-254 | A successful bulk action keeps every message pointing at an existing ticket and every status a valid spelling, so a bulk-set `open` counts as open and can receive inbound messages. |
| Views.BulkActionIdempotent | project/servicedesk/views.py:233-252 | Repeating a successful bulk action at the same instant changes nothing more. In particular, adding a tag twice is the same as adding it once. |
| Views.GetUnreadCounts | project/servicedesk/views.py:257-264 | Each of the open, answered and waiting counters is the number of tickets in that status. Together they add up to the live tickets, and open is zero exactly when no ticket is open. The unread total is the sum of the per-ticket unread counts in a well-formed store, and is zero exactly when every message is from staff or read. |
| Callback.SecretGateAsWritten | project/servicedesk/views.py:56-58 | The check is skipped unless the settings hold a `secret` entry. With that entry and no `SECRET_KEY`, the lookup raises. Otherwise it refuses exactly a mismatching secret. |
| Callback.SecretGate | project/servicedesk/views.py:55-58 | The intended check never raises. It admits an event exactly when no secret is configured or the event carries the configured secret. |
| Callback.Dispatch | project/servicedesk/views.py:61-71 | An event type without a handler is acknowledged with `ok` and changes nothing. A `message_new` event answers `ok` exactly when the handler completes, and 500 otherwise, keeping whatever the handler stored. |
| Callback.VkCallback | project/servicedesk/views.py:38-78 | Invalid JSON answers 400. A body that is not UTF-8 or not a JSON object answers 500. In all three cases the store is unchanged. `confirmation` answers the token before any secret check. With a secret configured, a mismatch answers 403 and changes nothing, and 403 only ever means a mismatch. Only a `message_new` event can change the store. Past the secret check the answer is `ok` exactly when no handler runs or the handler completes. An admitted event gets exactly the dispatch answer. |
| Callback.VkCallbackAsWritten | project/servicedesk/views.py:38-78 | Invalid JSON answers 400, and a body that is not UTF-8 or not an object answers 500, with the store unchanged. `confirmation` answers the token before any secret check. With a `secret` entry but no `SECRET_KEY`, every other event answers 500 and changes nothing. With both keys and a different secret, it answers 403 and changes nothing. Without a `secret` entry, or with a matching secret, the event goes straight to dispatch, whatever secret it carries. |
| Callback.AsWrittenAgreesWhenBothKeysSet | project/servicedesk/views.py:56-58 | When the settings hold a `secret` entry exactly when they hold a `SECRET_KEY`, the shipped endpoint and the intended one agree on every input. |
| Callback.WrongSecretAcceptedAsWritten | project/servicedesk/views.py:56-58 | The settings configure only `SECRET_KEY`, and a complete `message_new` event carries a different secret. The shipped endpoint answers `ok` and stores the event's message. The intended endpoint answers 403 and leaves the store unchanged. |
| Callback.WrongSecretWitness | project/servicedesk/views.py:56-58 | One concrete such input: `SECRET_KEY` is `s3cret`, there is no `secret` entry, a registered group, and an event with secret `wrong`. The shipped endpoint answers `ok`, the intended one answers 403. |

## Left out

- HTTP and framework plumbing is not modelled:
  - request objects and the `require_POST` and `csrf_exempt` decorators;
  - the `login_required` and `is_admin` access checks;
  - flash messages, template rendering, the redirect after `bulk_action` and logging.
- The `ticket_list` filtering, search and pagination are not modelled. They are query composition for the admin screen and do not change the store.
- The outbound VK API calls (`send_vk_message`, `send_message`, `get_vk_user_info`) are oracle parameters: a send outcome and an optional first and last name.
- The user's photo URL and the priority display labels are not modelled.
- Ticket identifier allocation is not modelled. The ticket model that allocates identifiers is not part of this model, so the new identifier is the parameter `newId`.
- Concurrency is not modelled. Events are handled one after another. The find-or-create has no locking in the code, so no atomicity is claimed.
- Real timestamps are not modelled. Time is a natural-number parameter `now`.
- `updated_at` has no automatic refresh on every save. That comes from a field option in the ticket model, which is not part of this model. Only the explicit update in the reply branch is modelled.
- Models.LatestActive: when two live tickets of a pair have the same creation time, the database's order between them is unspecified. The model picks the later one in the store, but its contract only promises a latest-created ticket.
- Views.ReplaceTagsOf: does not model the database error raised when a submitted tag id does not exist.
- Views.BulkAction: does not model the crash on a non-numeric `tag_id`. The submitted tag id is already a number or absent.
- EventHandlers.HandleMessageNew: a `text` field that is JSON `null` is treated like an absent text. In the code, `null` would reach the database as a null message text. Attachments are opaque values.
- Callback.VkCallback: a `type` or `secret` value that is not a string is treated as absent. Neither equals any configured string. An unhashable `type` would make the handler lookup raise, and that is not modelled.
- The handler's optional background `.delay` call is not modelled. The handler in the code has no such attribute, so it runs inline.

## Findings

| source | as written | input that shows it | evidently intended | confidence | as-written member | corrected member |
|---|---|---|---|---|---|---|
| project/servicedesk/views.py:56-57 | The secret check runs only if the callback settings contain a key named `secret`, but it compares against the key `SECRET_KEY`. | Settings hold `SECRET_KEY` = `s3cret` and no `secret` key. A `message_new` event from a registered group carries secret `wrong`. The endpoint answers `ok` and stores the message, opening a ticket for it. With `secret` present but `SECRET_KEY` absent, every non-confirmation event would answer 500. | Check the secret whenever `SECRET_KEY` is configured, and answer 403 on a mismatch. | high; not executed | Callback.WrongSecretAcceptedAsWritten | Callback.VkCallback |

=== FILE: callback.dfy ===
/** The webhook endpoint the community platform posts events to. The order of
    decisions is: an undecodable body, then the `confirmation` handshake,
    then the shared-secret check, then handler lookup; every admitted event
    is acknowledged with the literal body `ok`.

    Two definitions of the secret check are kept side by side. The shipped
    code guards on a settings key named `secret` but compares against the
    key `SECRET_KEY`, so a deployment that configures only `SECRET_KEY`
    never checks the secret at all. `SecretGateAsWritten` models that code;
    `SecretGate` is the check the code evidently intends, and `VkCallback`,
    the endpoint the rest of the model relies on, uses it. */
module Callback {
  import opened Models
  import opened EventHandlers

  /** The callback settings: the handshake token, whether the settings
      contain a key named `secret`, and the value under `SECRET_KEY`. */
  datatype Settings = Settings(
    confirmationToken: string,
    hasSecretEntry: bool,
    secretKey: Option<string>)

  /** The request body as the endpoint reads it. */
  datatype Body =
    | NotUtf8            // bytes that do not decode as UTF-8
    | NotJson            // text that json.loads rejects
    | NotObject          // valid JSON that is not an object
    | Json(env: Envelope)

  datatype Response = Response(status: nat, body: string)

  const Ok200: Response := Response(200, "ok")
  const BadJson400: Response := Response(400, "Invalid JSON")
  const BadSecret403: Response := Response(403, "Invalid secret")
  const Error500: Response := Response(500, "error")

  datatype Answer = Answer(response: Response, store: Store)

  /** The outcome of the secret check. */
  datatype Gate = Admit | Deny | Crash

  /** The check as shipped: guarded by the presence of a `secret` key, it
      then reads `SECRET_KEY`, which raises when absent. */
  function SecretGateAsWritten(cfg: Settings, env: Envelope): (g: Gate)
    ensures !cfg.hasSecretEntry ==> g == Admit
    ensures g == Deny <==> cfg.hasSecretEntry && cfg.secretKey.Some? && env.secret != cfg.secretKey
    ensures g == Crash <==> cfg.hasSecretEntry && cfg.secretKey.None?
  {
    if !cfg.hasSecretEntry then Admit
    else if cfg.secretKey.None? then Crash
    else if env.secret == cfg.secretKey then Admit
    else Deny
  }

  /** The intended check: whenever a secret is configured, an event is
      admitted only when it carries that secret. */
  function SecretGate(cfg: Settings, env: Envelope): (g: Gate)
    ensures g != Crash
    ensures g == Admit <==> cfg.secretKey.None? || env.secret == cfg.secretKey
  {
    if cfg.secretKey.Some? && env.secret != cfg.secretKey then Deny else Admit
  }

  /** The handler table: only `message_new` has a handler. */
  predicate HasHandler(eventType: Option<string>) {
    eventType == Some("message_new")
  }

  /** Everything after the secret check: run the handler if there is one;
      a handler exception is a 500, but what it wrote before raising stays. */
  function Dispatch(s: Store, env: Envelope, profile: Option<VkProfile>, now: nat, newId: string): (a: Answer)
    ensures !HasHandler(env.eventType) ==> a == Answer(Ok200, s)
    ensures HasHandler(env.eventType) ==>
      && a.store == HandleMessageNew(s, env, profile, now, newId).store
      && (a.response == Ok200 <==> Complete(s, env))
      && (a.response == Ok200 || a.response == Error500)
  {
    if HasHandler(env.eventType) then
      var h := HandleMessageNew(s, env, profile, now, newId);
      Answer(if h.fault.None? then Ok200 else Error500, h.store)
    else Answer(Ok200, s)
  }

  function Respond(cfg: Settings, body: Body, s: Store, profile: Option<VkProfile>, now: nat,
                   newId: string, gate: Envelope -> Gate): Answer
  {
    match body
    case NotUtf8 => Answer(Error500, s)
    case NotJson => Answer(BadJson400, s)
    case NotObject => Answer(Error500, s)
    case Json(env) =>
      if env.eventType == Some("confirmation") then Answer(Response(200, cfg.confirmationToken), s)
      else match gate(env)
        case Crash => Answer(Error500, s)
        case Deny => Answer(BadSecret403, s)
        case Admit => Dispatch(s, env, profile, now, newId)
  }

  /** `vk_callback` with the intended secret check. */
  function VkCallback(cfg: Settings, body: Body, s: Store, profile: Option<VkProfile>, now: nat,
                      newId: string): (a: Answer)
    ensures body.NotJson? ==> a == Answer(BadJson400, s)
    ensures body.NotUtf8? || body.NotObject? ==> a == Answer(Error500, s)
    ensures body.Json? && body.env.eventType == Some("confirmation") ==>
              a == Answer(Response(200, cfg.confirmationToken), s)
    ensures (body.Json? && body.env.eventType != Some("confirmation") && cfg.secretKey.Some?
             && body.env.secret != cfg.secretKey) ==> a == Answer(BadSecret403, s)
    ensures a.response.status == 403 ==> cfg.secretKey.Some? && body.Json? && body.env.secret != cfg.secretKey
    ensures a.store != s ==> body.Json? && HasHandler(body.env.eventType)
    ensures body.Json? && body.env.eventType != Some("confirmation") ==>
              (a.response == Ok200 <==>
                 && (cfg.secretKey.None? || body.env.secret == cfg.secretKey)
                 && (HasHandler(body.env.eventType) ==> Complete(s, body.env)))
    ensures (body.Json? && body.env.eventType != Some("confirmation")
             && (cfg.secretKey.None? || body.env.secret == cfg.secretKey)) ==>
              a == Dispatch(s, body.env, profile, now, newId)
  {
    Respond(cfg, body, s, profile, now, newId, env => SecretGate(cfg, env))
  }

  /** `vk_callback` exactly as shipped. */
  function VkCallbackAsWritten(cfg: Settings, body: Body, s: Store, profile: Option<VkProfile>, now: nat,
                               newId: string): (a: Answer)
    ensures body.NotJson? ==> a == Answer(BadJson400, s)
    ensures body.NotUtf8? || body.NotObject? ==> a == Answer(Error500, s)
    ensures body.Json? && body.env.eventType == Some("confirmation") ==>
              a == Answer(Response(200, cfg.confirmationToken), s)
    ensures (body.Json? && body.env.eventType != Some("confirmation")
             && cfg.hasSecretEntry && cfg.secretKey.None?) ==> a == Answer(Error500, s)
    ensures (body.Json? && body.env.eventType != Some("confirmation")
             && cfg.hasSecretEntry && cfg.secretKey.Some? && body.env.secret != cfg.secretKey) ==>
              a == Answer(BadSecret403, s)
    ensures (body.Json? && body.env.eventType != Some("confirmation")
             && (!cfg.hasSecretEntry || (cfg.secretKey.Some? && body.env.secret == cfg.secretKey))) ==>
              a == Dispatch(s, body.env, profile, now, newId)
  {
    Respond(cfg, body, s, profile, now, newId, env => SecretGateAsWritten(cfg, env))
  }

  /** When the settings hold a `secret` key exactly when they hold a
      `SECRET_KEY`, the shipped endpoint behaves as intended. */
  lemma AsWrittenAgreesWhenBothKeysSet(cfg: Settings, body: Body, s: Store, profile: Option<VkProfile>,
                                       now: nat, newId: string)
    requires cfg.hasSecretEntry <==> cfg.secretKey.Some?
    ensures VkCallbackAsWritten(cfg, body, s, profile, now, newId) == VkCallback(cfg, body, s, profile, now, newId)
  {
  }

  /** The discrepancy: with only `SECRET_KEY` configured, the shipped code
      accepts a complete `message_new` event whose secret is wrong, stores
      its message and answers `ok`; the intended check refuses it with 403
      and stores nothing. */
  lemma WrongSecretAcceptedAsWritten(cfg: Settings, env: Envelope, s: Store, profile: Option<VkProfile>,
                                     now: nat, newId: string)
    requires !cfg.hasSecretEntry && cfg.secretKey.Some?
    requires env.eventType == Some("message_new") && env.secret != cfg.secretKey
    requires Complete(s, env)
    ensures VkCallbackAsWritten(cfg, Json(env), s, profile, now, newId).response == Ok200
    ensures |VkCallbackAsWritten(cfg, Json(env), s, profile, now, newId).store.messages| == |s.messages| + 1
    ensures VkCallback(cfg, Json(env), s, profile, now, newId) == Answer(BadSecret403, s)
  {
  }

  /** One such input: a registered group, no `secret` entry, a wrong secret. */
  lemma WrongSecretWitness()
    ensures var cfg := Settings("token", false, Some("s3cret"));
            var env := Envelope(Some("message_new"), Some("wrong"), Some(1),
                                Some(MessageObject(Some(555), Some(7), None, None)));
            var s := Store({1}, {}, [], []);
            && VkCallbackAsWritten(cfg, Json(env), s, None, 0, "id-1").response == Ok200
            && VkCallback(cfg, Json(env), s, None, 0, "id-1").response == BadSecret403
  {
    var cfg := Settings("token", false, Some("s3cret"));
    var env := Envelope(Some("message_new"), Some("wrong"), Some(1),
                        Some(MessageObject(Some(555), Some(7), None, None)));
    var s := Store({1}, {}, [], []);
    WrongSecretAcceptedAsWritten(cfg, env, s, None, 0, "id-1");
  }
}

=== FILE: event_handlers.dfy ===
/** The inbound path: a `message_new` event from the community's callback
    is attached to the sender's live ticket, or opens a new one.

    The one network call the handler makes, the profile lookup, is an
    oracle parameter: an optional first/last name pair. The identifier the
    database allocates for a new ticket is the parameter `newId`, and the
    clock is the natural number `now`. */
module EventHandlers {
  import opened Text
  import opened Models

  /* ---------------- subject extraction ---------------- */

  const NoSubject: string := "Без темы"
  const SubjectLimit: nat := 100
  const Ellipsis: string := "..."

  /** The ticket subject derived from the first message: the stripped first
      line, cut to 97 characters plus "..." when longer than 100, and the
      fixed fallback when there is nothing left. */
  function ExtractSubject(text: string): (r: string)
    ensures 0 < |r| <= SubjectLimit
    ensures NoNewline(r) && Trimmed(r)
    ensures var line := Strip(FirstLine(text));
      && (|line| == 0 ==> r == NoSubject)
      && (0 < |line| <= SubjectLimit ==> r == line)
      && (|line| > SubjectLimit ==>
            |r| == SubjectLimit && r == line[..SubjectLimit - |Ellipsis|] + Ellipsis)
  {
    if |text| == 0 then NoSubject
    else
      var first := FirstLine(text);
      assert NoNewline(Strip(first)) by { StripKeepsNoNewline(first); }
      Shorten(Strip(first))
  }

  /** The cut applied to an already stripped single line. */
  function Shorten(line: string): (r: string)
    requires Trimmed(line) && NoNewline(line)
    ensures 0 < |r| <= SubjectLimit && NoNewline(r) && Trimmed(r)
    ensures |line| == 0 ==> r == NoSubject
    ensures 0 < |line| <= SubjectLimit ==> r == line
    ensures |line| > SubjectLimit ==> |r| == SubjectLimit && r == line[..SubjectLimit - |Ellipsis|] + Ellipsis
  {
    if |line| > SubjectLimit then line[..SubjectLimit - |Ellipsis|] + Ellipsis
    else if |line| > 0 then line
    else NoSubject
  }

  /** Stripping never introduces a line feed. */
  lemma StripKeepsNoNewline(s: string)
    requires NoNewline(s)
    ensures NoNewline(Strip(s))
  {
    var a := TrimStart(s);
    assert NoNewline(a);
  }

  /** A subject is its own subject: feeding a ticket's subject back in as a
      message yields the same subject, so the cut at 100 is a fixed point. */
  lemma ExtractSubjectIdempotent(text: string)
    ensures ExtractSubject(ExtractSubject(text)) == ExtractSubject(text)
  {
    var r := ExtractSubject(text);
    FirstLineOfSingleLine(r);
    StripTrimmed(r);
  }

  /** The boundary case: a first line of exactly 100 characters is kept whole. */
  lemma HundredCharLineKept(line: string, rest: string)
    requires |line| == SubjectLimit && Trimmed(line) && NoNewline(line)
    ensures ExtractSubject(line + "\n" + rest) == line
  {
    FirstLineBeforeNewline(line, rest);
    StripTrimmed(line);
  }

  /* ---------------- display name ---------------- */

  /** A successful profile lookup: the user's first and last name. */
  datatype VkProfile = VkProfile(firstName: string, lastName: string)

  const FallbackPrefix: string := "Пользователь "

  /** The name used when the profile lookup fails: the prefix then the
      user id in decimal. */
  function FallbackName(userId: int): (r: string)
    ensures |r| > |FallbackPrefix| && r[..|FallbackPrefix|] == FallbackPrefix
    ensures r[|FallbackPrefix|..] == IntToDecimal(userId)
  {
    FallbackPrefix + IntToDecimal(userId)
  }

  /** Two users whose lookups fail still get different display names. */
  lemma FallbackNamesDistinct(a: int, b: int)
    requires a != b
    ensures FallbackName(a) != FallbackName(b)
  {
    if FallbackName(a) == FallbackName(b) {
      IntToDecimalInjective(a, b);
    }
  }

  /** The name a new ticket is filed under: the profile's first and last
      name joined by one space, or the fallback when no profile came back. */
  function UserName(userId: int, profile: Option<VkProfile>): (r: string)
    ensures profile.Some? ==> r == profile.value.firstName + " " + profile.value.lastName
    ensures profile.None? ==> r == FallbackName(userId)
    ensures profile.None? ==> r[..|FallbackPrefix|] == FallbackPrefix && r[|FallbackPrefix|..] == IntToDecimal(userId)
  {
    match profile
    case Some(p) => p.firstName + " " + p.lastName
    case None => FallbackName(userId)
  }

  /* ---------------- the event ---------------- */

  /** `data['object']['message']`; absent keys are `None`. */
  datatype MessageObject = MessageObject(
    fromId: Option<int>,
    id: Option<int>,
    text: Option<string>,
    attachments: Option<seq<Blob>>)

  /** A decoded callback body. A `type` or `secret` that is not a string is
      represented by `None`: it equals no configured string either. */
  datatype Envelope = Envelope(
    eventType: Option<string>,
    secret: Option<string>,
    groupId: Option<int>,
    message: Option<MessageObject>)

  /** Exceptions the handler raises, in the order the handler would hit them. */
  datatype Fault =
    | NoMessageObject  // data['object']['message'] is missing
    | NoGroupId        // data['group_id'] is missing
    | UnknownGroup     // VKGroup.DoesNotExist
    | NoSender         // message['from_id'] is missing
    | NoMessageId      // message['id'] is missing, after the ticket exists

  datatype Handled = Handled(store: Store, fault: Option<Fault>)

  /** Everything the handler reads is present and the group is registered. */
  predicate Complete(s: Store, ev: Envelope) {
    && ev.message.Some?
    && ev.groupId.Some?
    && ev.groupId.value in s.groups
    && ev.message.value.fromId.Some?
    && ev.message.value.id.Some?
  }

  function NewTicket(id: string, userId: int, group: int, name: string, text: string, now: nat): Ticket {
    Ticket(id, userId, group, name, ExtractSubject(text), Open, DefaultPriority,
           now, now, None, None, {})
  }

  /** Find the receiving ticket, creating one when the pair has no live ticket.
      Returns the store and the receiving ticket's position. */
  function FindOrCreate(s: Store, userId: int, group: int, text: string,
                        profile: Option<VkProfile>, now: nat, newId: string): (r: (Store, nat))
    ensures r.0.groups == s.groups && r.0.tagIds == s.tagIds && r.0.messages == s.messages
    ensures r.1 < |r.0.tickets| && IsActiveFor(r.0.tickets[r.1], userId, group)
    ensures HasActive(s.tickets, userId, group) ==>
              r.0 == s && IsLatestActive(s.tickets, userId, group, r.1)
    ensures !HasActive(s.tickets, userId, group) ==>
              && |r.0.tickets| == |s.tickets| + 1
              && r.0.tickets[..|s.tickets|] == s.tickets
              && r.1 == |s.tickets|
              && var t := r.0.tickets[r.1];
                 && t.ticketId == newId && t.userId == userId && t.group == group
                 && t.status == Open && t.subject == ExtractSubject(text)
                 && t.userName == UserName(userId, profile)
                 && t.priority == DefaultPriority && t.createdAt == now
                 && t.closedAt.None? && t.admin.None? && t.tags == {}
  {
    match LatestActive(s.tickets, userId, group)
    case Some(k) => (s, k)
    case None =>
      var t := NewTicket(newId, userId, group, UserName(userId, profile), text, now);
      (s.(tickets := s.tickets + [t]), |s.tickets|)
  }

  /** The inbound status rule: a closed ticket reopens (clearing its closing
      time), an answered one goes back to waiting, any other is left alone. */
  function ApplyInbound(t: Ticket): (r: Ticket)
    ensures t.status.IsActive() || t.status.Closed? ==> r.status == Open || r.status == Waiting
    ensures t.status.Closed? ==> r == t.(status := Open, closedAt := None)
    ensures t.status.Answered? ==> r == t.(status := Waiting)
    ensures !t.status.Closed? && !t.status.Answered? ==> r == t
  {
    match t.status
    case Closed => t.(status := Open, closedAt := None)
    case Answered => t.(status := Waiting)
    case _ => t
  }

  /** The message went to the pair's latest live ticket `k`, no ticket was
      created, and only the inbound status rule touched `k`. */
  ghost predicate JoinedLatest(s: Store, s': Store, userId: int, group: int, k: nat) {
    && |s'.tickets| == |s.tickets|
    && IsLatestActive(s.tickets, userId, group, k)
    && s'.tickets[k] == ApplyInbound(s.tickets[k])
  }

  /** A single ticket `t` was created at the end of the ticket list. */
  ghost predicate OpenedNew(s: Store, s': Store, k: nat, t: Ticket) {
    && |s'.tickets| == |s.tickets| + 1
    && k == |s.tickets|
    && s'.tickets[k] == t
  }

  /** The successful part of the handler: find or create, append, update. */
  function Receive(s: Store, userId: int, group: int, externalId: int, text: string,
                   attachments: seq<Blob>, profile: Option<VkProfile>, now: nat,
                   newId: string): (r: (Store, nat))
    ensures r.0.groups == s.groups && r.0.tagIds == s.tagIds
    ensures r.1 < |r.0.tickets|
    ensures AppendedOne(s, r.0, Message(r.1, Some(externalId), text, attachments, false, false, None, now))
    ensures OthersKept(s, r.0, r.1)
    ensures r.0.tickets[r.1].userId == userId && r.0.tickets[r.1].group == group
    ensures r.0.tickets[r.1].status == Open || r.0.tickets[r.1].status == Waiting
    ensures HasActive(s.tickets, userId, group) ==> JoinedLatest(s, r.0, userId, group, r.1)
    ensures !HasActive(s.tickets, userId, group) ==>
              OpenedNew(s, r.0, r.1, NewTicket(newId, userId, group, UserName(userId, profile), text, now))
  {
    var target := FindOrCreate(s, userId, group, text, profile, now, newId);
    var k := target.1;
    var msg := Message(k, Some(externalId), text, attachments, false, false, None, now);
    (Deliver(target.0, k, msg), k)
  }

  /** Append `msg` and apply the inbound status rule to ticket `k`. */
  function Deliver(s: Store, k: nat, msg: Message): (r: Store)
    requires k < |s.tickets|
    ensures OnlyTicketChanged(s, r, k)
    ensures AppendedOne(s, r, msg)
    ensures r.tickets[k] == ApplyInbound(s.tickets[k])
  {
    AppendMessage(s, msg).(tickets := s.tickets[k := ApplyInbound(s.tickets[k])])
  }

  /** `handle_message_new`. On success exactly one unread user message is
      appended, to the sender's latest live ticket or to a fresh `open` one,
      and the receiving ticket ends `open` or `waiting`. On a fault nothing
      is appended; only a missing message id can leave a new ticket behind. */
  function HandleMessageNew(s: Store, ev: Envelope, profile: Option<VkProfile>,
                            now: nat, newId: string): (h: Handled)
    ensures h.fault.None? <==> Complete(s, ev)
    ensures h.fault.Some? ==> h.store.messages == s.messages
    ensures h.fault.Some? && h.fault != Some(NoMessageId) ==> h.store == s
    ensures h.fault == Some(NoMessageId) ==>
      && ev.message.Some? && ev.groupId.Some? && ev.groupId.value in s.groups
      && ev.message.value.fromId.Some? && ev.message.value.id.None?
      && h.store == FindOrCreate(s, ev.message.value.fromId.value, ev.groupId.value,
                                 ev.message.value.text.GetOr(""), profile, now, newId).0
    ensures h.store.groups == s.groups && h.store.tagIds == s.tagIds
    ensures |s.tickets| <= |h.store.tickets| <= |s.tickets| + 1
    ensures Complete(s, ev) ==>
      var m := ev.message.value;
      var userId := m.fromId.value;
      var group := ev.groupId.value;
      var text := m.text.GetOr("");
      && |h.store.messages| == |s.messages| + 1
      && var k := h.store.messages[|s.messages|].ticket;
         && k < |h.store.tickets|
         && AppendedOne(s, h.store, Message(k, m.id, text, m.attachments.GetOr([]), false, false, None, now))
         && OthersKept(s, h.store, k)
         && h.store.tickets[k].userId == userId && h.store.tickets[k].group == group
         && (h.store.tickets[k].status == Open || h.store.tickets[k].status == Waiting)
         && (HasActive(s.tickets, userId, group) ==> JoinedLatest(s, h.store, userId, group, k))
         && (!HasActive(s.tickets, userId, group) ==>
               OpenedNew(s, h.store, k, NewTicket(newId, userId, group, UserName(userId, profile), text, now)))
  {
    if ev.message.None? then Handled(s, Some(NoMessageObject))
    else if ev.groupId.None? then Handled(s, Some(NoGroupId))
    else if ev.groupId.value !in s.groups then Handled(s, Some(UnknownGroup))
    else if ev.message.value.fromId.None? then Handled(s, Some(NoSender))
    else
      var m := ev.message.value;
      var text := m.text.GetOr("");
      if m.id.None? then
        var target := FindOrCreate(s, m.fromId.value, ev.groupId.value, text, profile, now, newId);
        Handled(target.0, Some(NoMessageId))
      else
        var r := Receive(s, m.fromId.value, ev.groupId.value, m.id.value, text,
                         m.attachments.GetOr([]), profile, now, newId);
        Handled(r.0, None)
  }

  /** Touching one ticket, possibly a new one at the end, and appending at
      most one message that points at an existing ticket keeps a store well
      formed. */
  lemma WellFormedAfterTouch(s: Store, s': Store, k: nat)
    requires WellFormed(s)
    requires |s.messages| <= |s'.messages| <= |s.messages| + 1 && s'.messages[..|s.messages|] == s.messages
    requires |s'.messages| > |s.messages| ==> s'.messages[|s.messages|].ticket < |s'.tickets|
    requires OthersKept(s, s', k) && k < |s'.tickets| && s'.tickets[k].status.Valid()
    requires |s'.tickets| <= |s.tickets| + 1 && (|s'.tickets| > |s.tickets| ==> k == |s.tickets|)
    ensures WellFormed(s')
  {
    forall i | 0 <= i < |s.messages| ensures s'.messages[i].ticket < |s'.tickets| {
      assert s'.messages[i] == s'.messages[..|s.messages|][i];
    }
  }

  /** The handler keeps the store well formed: every message still points at
      an existing ticket, and no status outside the known spellings appears. */
  lemma HandleMessageNewKeepsWellFormed(s: Store, ev: Envelope, profile: Option<VkProfile>,
                                        now: nat, newId: string)
    requires WellFormed(s)
    ensures WellFormed(HandleMessageNew(s, ev, profile, now, newId).store)
  {
    if Complete(s, ev) {
      ReceiveKeepsWellFormed(s, ev, profile, now, newId);
    } else if HandleMessageNew(s, ev, profile, now, newId).fault == Some(NoMessageId) {
      var m := ev.message.value;
      var target := FindOrCreate(s, m.fromId.value, ev.groupId.value, m.text.GetOr(""), profile, now, newId);
      WellFormedAfterTouch(s, target.0, target.1);
    }
  }

  lemma ReceiveKeepsWellFormed(s: Store, ev: Envelope, profile: Option<VkProfile>, now: nat, newId: string)
    requires WellFormed(s) && Complete(s, ev)
    ensures WellFormed(HandleMessageNew(s, ev, profile, now, newId).store)
  {
    var h := HandleMessageNew(s, ev, profile, now, newId).store;
    WellFormedAfterTouch(s, h, h.messages[|s.messages|].ticket);
  }

  /* ---------------- sequences of events ---------------- */

  /** One inbound event together with the oracle answers that go with it. */
  datatype Delivery = Delivery(event: Envelope, profile: Option<VkProfile>, now: nat, newId: string)

  /** The store after one delivery. */
  function Step(s: Store, d: Delivery): Store {
    HandleMessageNew(s, d.event, d.profile, d.now, d.newId).store
  }

  /** Events handled one after another, each on the store the previous left. */
  function HandleAll(s: Store, ds: seq<Delivery>): Store
    decreases |ds|
  {
    if |ds| == 0 then s else HandleAll(Step(s, ds[0]), ds[1..])
  }

  /** A complete `message_new` event from user `userId` in group `group`. */
  predicate FromPair(ev: Envelope, userId: int, group: int) {
    && ev.message.Some?
    && ev.groupId == Some(group)
    && ev.message.value.fromId == Some(userId)
    && ev.message.value.id.Some?
  }

  function TextOf(d: Delivery): string {
    if d.event.message.Some? then d.event.message.value.text.GetOr("") else ""
  }

  /** Messages `base ..` of `ms` are the texts of `ds`, in order, all in ticket `n`. */
  ghost predicate LandsIn(ms: seq<Message>, base: nat, ds: seq<Delivery>, n: nat) {
    && |ms| == base + |ds|
    && forall k :: base <= k < |ms| ==> ms[k].ticket == n && ms[k].text == TextOf(ds[k - base])
  }

  /** One message for ticket `n` carrying the text of `d` was appended to `ms`. */
  ghost predicate GrewBy(ms: seq<Message>, ms': seq<Message>, d: Delivery, n: nat) {
    && |ms'| == |ms| + 1 && ms'[..|ms|] == ms
    && ms'[|ms|].ticket == n && ms'[|ms|].text == TextOf(d)
  }

  /** Prepending one landed delivery to a run of landed deliveries. */
  lemma LandsInCons(ms: seq<Message>, mid: seq<Message>, r: seq<Message>, ds: seq<Delivery>, n: nat)
    requires |ds| > 0 && GrewBy(ms, mid, ds[0], n)
    requires LandsIn(r, |mid|, ds[1..], n) && r[..|mid|] == mid
    ensures LandsIn(r, |ms|, ds, n) && r[..|ms|] == ms
  {
    var base := |ms|;
    assert r[base] == mid[base];
    forall k | base + 1 <= k < |r|
      ensures r[k].text == TextOf(ds[k - base])
    {
      assert ds[1..][k - (base + 1)] == ds[k - base];
    }
    assert r[..base] == mid[..base];
  }

  lemma HandleAllCons(s: Store, ds: seq<Delivery>)
    requires |ds| > 0
    ensures HandleAll(s, ds) == HandleAll(Step(s, ds[0]), ds[1..])
  {
  }

  lemma FromPairTail(ds: seq<Delivery>, userId: int, group: int)
    requires |ds| > 0
    requires forall i :: 0 <= i < |ds| ==> FromPair(ds[i].event, userId, group)
    ensures forall i :: 0 <= i < |ds[1..]| ==> FromPair(ds[1..][i].event, userId, group)
  {
    forall i | 0 <= i < |ds[1..]| ensures FromPair(ds[1..][i].event, userId, group) {
      assert ds[1..][i] == ds[i + 1];
    }
  }

  /** Touching ticket `k` (or appending it as a new ticket when the pair had
      no live one) keeps every pair's live ticket unique. */
  lemma UniqueAfterTouch(ts: seq<Ticket>, ts': seq<Ticket>, k: nat, u: int, g: int,
                         userId: int, group: int)
    requires ActiveUnique(ts, userId, group)
    requires |ts| <= |ts'| <= |ts| + 1 && k < |ts'|
    requires forall j :: 0 <= j < |ts| && j != k ==> ts'[j] == ts[j]
    requires ts'[k].userId == u && ts'[k].group == g
    requires |ts'| == |ts| + 1 ==> k == |ts| && !HasActive(ts, u, g)
    requires k < |ts| ==> IsActiveFor(ts[k], u, g)
    ensures ActiveUnique(ts', userId, group)
  {
  }

  /** Whatever the event, a pair that had at most one live ticket still has
      at most one: the handler only opens a ticket when none is live. */
  lemma HandleKeepsActiveUnique(s: Store, ev: Envelope, profile: Option<VkProfile>,
                                now: nat, newId: string, userId: int, group: int)
    requires ActiveUnique(s.tickets, userId, group)
    ensures ActiveUnique(HandleMessageNew(s, ev, profile, now, newId).store.tickets, userId, group)
  {
    var h := HandleMessageNew(s, ev, profile, now, newId);
    if Complete(s, ev) {
      var m := ev.message.value;
      var k := h.store.messages[|s.messages|].ticket;
      UniqueAfterTouch(s.tickets, h.store.tickets, k, m.fromId.value, ev.groupId.value, userId, group);
    } else if h.fault == Some(NoMessageId) {
      var m := ev.message.value;
      var target := FindOrCreate(s, m.fromId.value, ev.groupId.value, m.text.GetOr(""), profile, now, newId);
      UniqueAfterTouch(s.tickets, h.store.tickets, target.1, m.fromId.value, ev.groupId.value, userId, group);
    }
  }

  /** One complete event from a pair whose only live ticket is `n`. */
  lemma JoinStep(s: Store, d: Delivery, userId: int, group: int, n: nat)
    requires n < |s.tickets| && IsActiveFor(s.tickets[n], userId, group)
    requires ActiveUnique(s.tickets, userId, group)
    requires group in s.groups && FromPair(d.event, userId, group)
    ensures var h := Step(s, d);
      && |h.tickets| == |s.tickets| && h.groups == s.groups
      && IsActiveFor(h.tickets[n], userId, group)
      && ActiveUnique(h.tickets, userId, group)
      && GrewBy(s.messages, h.messages, d, n)
  {
    var h := HandleMessageNew(s, d.event, d.profile, d.now, d.newId);
    assert Complete(s, d.event);
    assert HasActive(s.tickets, userId, group);
    var k := h.store.messages[|s.messages|].ticket;
    assert JoinedLatest(s, h.store, userId, group, k);
    HandleKeepsActiveUnique(s, d.event, d.profile, d.now, d.newId, userId, group);
  }

  /** One complete event from a pair with no live ticket. */
  lemma OpenStep(s: Store, d: Delivery, userId: int, group: int)
    requires !HasActive(s.tickets, userId, group)
    requires group in s.groups && FromPair(d.event, userId, group)
    ensures var h := Step(s, d);
      && |h.tickets| == |s.tickets| + 1 && h.groups == s.groups
      && IsActiveFor(h.tickets[|s.tickets|], userId, group)
      && ActiveUnique(h.tickets, userId, group)
      && GrewBy(s.messages, h.messages, d, |s.tickets|)
  {
    var h := HandleMessageNew(s, d.event, d.profile, d.now, d.newId);
    assert Complete(s, d.event);
    var ts := h.store.tickets;
    assert OpenedNew(s, h.store, |s.tickets|, ts[|s.tickets|]);
    assert forall j :: 0 <= j < |s.tickets| ==> ts[j] == s.tickets[j];
  }

  /** Events from a pair that already has exactly one live ticket `n` all land
      in `n`, in arrival order, and create nothing. */
  lemma {:induction false} BurstJoins(s: Store, ds: seq<Delivery>, userId: int, group: int, n: nat)
    requires n < |s.tickets| && IsActiveFor(s.tickets[n], userId, group)
    requires ActiveUnique(s.tickets, userId, group)
    requires group in s.groups
    requires forall i :: 0 <= i < |ds| ==> FromPair(ds[i].event, userId, group)
    ensures var r := HandleAll(s, ds);
      && |r.tickets| == |s.tickets|
      && LandsIn(r.messages, |s.messages|, ds, n)
      && r.messages[..|s.messages|] == s.messages
    decreases |ds|
  {
    if |ds| > 0 {
      var h := Step(s, ds[0]);
      JoinStep(s, ds[0], userId, group, n);
      FromPairTail(ds, userId, group);
      BurstJoins(h, ds[1..], userId, group, n);
      HandleAllCons(s, ds);
      LandsInCons(s.messages, h.messages, HandleAll(h, ds[1..]).messages, ds, n);
    }
  }

  /** A burst of events from a pair with no live ticket opens exactly one
      ticket, and every one of the events becomes a message of it, in order. */
  lemma BurstOpensOneTicket(s: Store, ds: seq<Delivery>, userId: int, group: int)
    requires !HasActive(s.tickets, userId, group)
    requires group in s.groups
    requires |ds| > 0
    requires forall i :: 0 <= i < |ds| ==> FromPair(ds[i].event, userId, group)
    ensures var r := HandleAll(s, ds);
      && |r.tickets| == |s.tickets| + 1
      && LandsIn(r.messages, |s.messages|, ds, |s.tickets|)
      && r.messages[..|s.messages|] == s.messages
  {
    var h := Step(s, ds[0]);
    OpenStep(s, ds[0], userId, group);
    FromPairTail(ds, userId, group);
    BurstJoins(h, ds[1..], userId, group, |s.tickets|);
    HandleAllCons(s, ds);
    LandsInCons(s.messages, h.messages, HandleAll(h, ds[1..]).messages, ds, |s.tickets|);
  }
}

=== FILE: models.dfy ===
/** The helpdesk's records: tickets, the messages that belong to them, and
    the store that holds both, together with the read-only queries the
    event handler and the staff views share (active-ticket lookup, ticket
    lookup by identifier, unread counts). */
module Models {
  import opened Text

  datatype Option<T> = None | Some(value: T) {
    function GetOr(default: T): T {
      if Some? then value else default
    }
  }

  /** Why a staff view answers with an error page instead of acting. */
  datatype ViewError =
    | NotFound       // get_object_or_404 found nothing (HTTP 404)
    | MultipleFound  // get_object_or_404 found several rows (HTTP 500)

  datatype Result<T> = Ok(value: T) | Err(error: ViewError)

  type StaffId = nat
  type TagId = nat
  /** An attachment is carried through as an opaque JSON value. */
  type Blob = string

  /** The four statuses the bridge knows by name. The staff status form stores
      whatever string it is given, so any other value is kept verbatim. */
  datatype Status = Open | Answered | Waiting | Closed | Unlisted(name: string) {
    function Name(): string {
      match this
      case Open => "open"
      case Answered => "answered"
      case Waiting => "waiting"
      case Closed => "closed"
      case Unlisted(n) => n
    }

    /** An `Unlisted` status never spells one of the four known names. */
    predicate Valid() {
      Unlisted? ==> name !in {"open", "answered", "waiting", "closed"}
    }

    /** The statuses the inbound matcher treats as a live conversation. */
    predicate IsActive() {
      Open? || Answered? || Waiting?
    }
  }

  /** Reads a status as stored in the database column: the round trip to
      `Name` is exact, so comparing statuses is comparing their strings. */
  function ParseStatus(s: string): (st: Status)
    ensures st.Valid() && st.Name() == s
  {
    if s == "open" then Open
    else if s == "answered" then Answered
    else if s == "waiting" then Waiting
    else if s == "closed" then Closed
    else Unlisted(s)
  }

  lemma StatusNameInjective(a: Status, b: Status)
    requires a.Valid() && b.Valid() && a.Name() == b.Name()
    ensures a == b
  {
  }

  const DefaultPriority: string := "medium"

  datatype Ticket = Ticket(
    ticketId: string,
    userId: int,
    group: int,
    userName: string,
    subject: string,
    status: Status,
    priority: string,
    createdAt: nat,
    updatedAt: nat,
    closedAt: Option<nat>,
    admin: Option<StaffId>,
    tags: set<TagId>)

  /** `ticket` is the position of the owning ticket in `Store.tickets`;
      tickets are never deleted, so positions are stable. */
  datatype Message = Message(
    ticket: nat,
    externalId: Option<int>,
    text: string,
    attachments: seq<Blob>,
    isAdmin: bool,
    isRead: bool,
    author: Option<StaffId>,
    createdAt: nat)

  /** The database: registered community groups, existing tag ids, tickets in
      insertion order and messages in insertion order. */
  datatype Store = Store(
    groups: set<int>,
    tagIds: set<TagId>,
    tickets: seq<Ticket>,
    messages: seq<Message>)

  predicate WellFormed(s: Store) {
    && (forall i :: 0 <= i < |s.messages| ==> s.messages[i].ticket < |s.tickets|)
    && (forall i :: 0 <= i < |s.tickets| ==> s.tickets[i].status.Valid())
  }

  /** Exactly `msg` was appended to the message log; nothing else in it moved. */
  ghost predicate AppendedOne(s: Store, s': Store, msg: Message) {
    && |s'.messages| == |s.messages| + 1
    && s'.messages[..|s.messages|] == s.messages
    && s'.messages[|s.messages|] == msg
  }

  /** Every ticket that existed, other than the `k`-th, is untouched. */
  ghost predicate OthersKept(s: Store, s': Store, k: nat) {
    && |s.tickets| <= |s'.tickets|
    && forall j :: 0 <= j < |s.tickets| && j != k ==> s'.tickets[j] == s.tickets[j]
  }

  /** Only ticket `k` may differ between the two stores' ticket lists. */
  ghost predicate OnlyTicketChanged(s: Store, after: Store, k: nat) {
    && after.groups == s.groups && after.tagIds == s.tagIds
    && |after.tickets| == |s.tickets|
    && OthersKept(s, after, k)
  }

  function AppendMessage(s: Store, m: Message): (r: Store)
    ensures r.groups == s.groups && r.tagIds == s.tagIds && r.tickets == s.tickets
    ensures AppendedOne(s, r, m)
  {
    s.(messages := s.messages + [m])
  }

  /* ---------------- inbound ticket matching ---------------- */

  predicate IsActiveFor(t: Ticket, userId: int, group: int) {
    t.userId == userId && t.group == group && t.status.IsActive()
  }

  ghost predicate HasActive(ts: seq<Ticket>, userId: int, group: int) {
    exists j :: 0 <= j < |ts| && IsActiveFor(ts[j], userId, group)
  }

  /** `k` is an active ticket of the pair created no earlier than any other. */
  ghost predicate IsLatestActive(ts: seq<Ticket>, userId: int, group: int, k: nat) {
    && k < |ts|
    && IsActiveFor(ts[k], userId, group)
    && forall j :: 0 <= j < |ts| && IsActiveFor(ts[j], userId, group) ==>
         ts[j].createdAt <= ts[k].createdAt
  }

  /** At most one active ticket per (user, group): the invariant the matcher
      is there to keep. */
  ghost predicate ActiveUnique(ts: seq<Ticket>, userId: int, group: int) {
    forall i, j ::
      && 0 <= i < |ts| && 0 <= j < |ts|
      && IsActiveFor(ts[i], userId, group) && IsActiveFor(ts[j], userId, group)
      ==> i == j
  }

  /** The active-ticket query over the first `n` tickets: filter on user,
      group and status in {open, answered, waiting}, order by creation time
      descending, take the first. Equal creation times go to the later row. */
  function LatestActiveIn(ts: seq<Ticket>, userId: int, group: int, n: nat): (r: Option<nat>)
    requires n <= |ts|
    ensures r.None? <==> forall j :: 0 <= j < n ==> !IsActiveFor(ts[j], userId, group)
    ensures r.Some? ==> && r.value < n
                        && IsActiveFor(ts[r.value], userId, group)
                        && forall j :: 0 <= j < n && IsActiveFor(ts[j], userId, group) ==>
                             ts[j].createdAt <= ts[r.value].createdAt
    decreases n
  {
    if n == 0 then None
    else
      var earlier := LatestActiveIn(ts, userId, group, n - 1);
      if !IsActiveFor(ts[n - 1], userId, group) then earlier
      else if earlier.Some? && ts[n - 1].createdAt < ts[earlier.value].createdAt then earlier
      else Some(n - 1)
  }

  function LatestActive(ts: seq<Ticket>, userId: int, group: int): (r: Option<nat>)
    ensures r.None? <==> !HasActive(ts, userId, group)
    ensures r.Some? ==> IsLatestActive(ts, userId, group, r.value)
  {
    LatestActiveIn(ts, userId, group, |ts|)
  }

  /* ---------------- lookup by ticket identifier ---------------- */

  datatype Lookup = Missing | Ambiguous | At(index: nat)

  /** No ticket carries the identifier. */
  ghost predicate NoneWithId(ts: seq<Ticket>, id: string) {
    forall j :: 0 <= j < |ts| ==> ts[j].ticketId != id
  }

  /** Two different tickets carry the identifier. */
  ghost predicate DuplicatedId(ts: seq<Ticket>, id: string) {
    exists i, j :: 0 <= i < j < |ts| && ts[i].ticketId == id && ts[j].ticketId == id
  }

  /** The `k`-th ticket is the only one carrying the identifier. */
  ghost predicate OnlyWithId(ts: seq<Ticket>, id: string, k: nat) {
    && k < |ts| && ts[k].ticketId == id
    && forall j :: 0 <= j < |ts| && ts[j].ticketId == id ==> j == k
  }

  /** `get_object_or_404(Ticket, ticket_id=id)` over the first `n` tickets. */
  function LocateIn(ts: seq<Ticket>, id: string, n: nat): (r: Lookup)
    requires n <= |ts|
    ensures r.Missing? <==> forall j :: 0 <= j < n ==> ts[j].ticketId != id
    ensures r.At? ==> && r.index < n && ts[r.index].ticketId == id
                      && forall j :: 0 <= j < n && ts[j].ticketId == id ==> j == r.index
    ensures r.Ambiguous? ==> exists i, j :: 0 <= i < j < n && ts[i].ticketId == id && ts[j].ticketId == id
    decreases n
  {
    if n == 0 then Missing
    else
      var earlier := LocateIn(ts, id, n - 1);
      if ts[n - 1].ticketId != id then earlier
      else if earlier.Missing? then At(n - 1)
      else
        assert exists i :: 0 <= i < n - 1 && ts[i].ticketId == id;
        Ambiguous
  }

  function Locate(ts: seq<Ticket>, id: string): (r: Lookup)
    ensures r.Missing? <==> NoneWithId(ts, id)
    ensures r.Ambiguous? <==> DuplicatedId(ts, id)
    ensures r.At? ==> OnlyWithId(ts, id, r.index)
    ensures forall k :: OnlyWithId(ts, id, k) ==> r == At(k)
  {
    LocateIn(ts, id, |ts|)
  }

  /* ---------------- unread counting ---------------- */

  /** A message from the end user that no staff member has opened yet. */
  predicate IsUnread(m: Message) {
    !m.isAdmin && !m.isRead
  }

  /** `Message.objects.filter(is_admin=False, is_read=False).count()`. */
  function TotalUnread(ms: seq<Message>): (r: nat)
    ensures r <= |ms|
    ensures r == 0 <==> forall i :: 0 <= i < |ms| ==> !IsUnread(ms[i])
  {
    if |ms| == 0 then 0
    else TotalUnread(ms[..|ms| - 1]) + (if IsUnread(ms[|ms| - 1]) then 1 else 0)
  }

  /** The unread count of one ticket: its user messages not yet read. */
  function UnreadFor(ms: seq<Message>, k: nat): (r: nat)
    ensures r <= TotalUnread(ms)
    ensures r == 0 <==> forall i :: 0 <= i < |ms| && ms[i].ticket == k ==> !IsUnread(ms[i])
  {
    if |ms| == 0 then 0
    else UnreadFor(ms[..|ms| - 1], k) + (if ms[|ms| - 1].ticket == k && IsUnread(ms[|ms| - 1]) then 1 else 0)
  }

  /** Per-ticket unread counts summed over tickets `0 .. n-1`. */
  function SumUnread(ms: seq<Message>, n: nat): nat {
    if n == 0 then 0 else SumUnread(ms, n - 1) + UnreadFor(ms, n - 1)
  }

  lemma {:induction false} SumUnreadAppend(ms: seq<Message>, m: Message, n: nat)
    ensures SumUnread(ms + [m], n) ==
            SumUnread(ms, n) + (if m.ticket < n && IsUnread(m) then 1 else 0)
  {
    assert (ms + [m])[..|ms|] == ms;
    if n > 0 {
      SumUnreadAppend(ms, m, n - 1);
    }
  }

  /** The global unread total is the sum of the per-ticket counts: no unread
      message is lost or counted twice when every message has an owner. */
  lemma {:induction false} TotalUnreadIsSumPerTicket(ms: seq<Message>, n: nat)
    requires forall i :: 0 <= i < |ms| ==> ms[i].ticket < n
    ensures TotalUnread(ms) == SumUnread(ms, n)
    decreases |ms|
  {
    if |ms| == 0 {
      SumUnreadEmpty(ms, n);
    } else {
      var init := ms[..|ms| - 1];
      assert ms == init + [ms[|ms| - 1]];
      TotalUnreadIsSumPerTicket(init, n);
      SumUnreadAppend(init, ms[|ms| - 1], n);
    }
  }

  lemma {:induction false} SumUnreadEmpty(ms: seq<Message>, n: nat)
    requires |ms| == 0
    ensures SumUnread(ms, n) == 0
  {
    if n > 0 {
      SumUnreadEmpty(ms, n - 1);
    }
  }

  /** Appending one message changes the counts only by that message. */
  lemma UnreadAppend(ms: seq<Message>, m: Message, k: nat)
    ensures TotalUnread(ms + [m]) == TotalUnread(ms) + (if IsUnread(m) then 1 else 0)
    ensures UnreadFor(ms + [m], k) == UnreadFor(ms, k) + (if m.ticket == k && IsUnread(m) then 1 else 0)
  {
    assert (ms + [m])[..|ms|] == ms;
  }

  /* ---------------- status counting ---------------- */

  function CountStatus(ts: seq<Ticket>, st: Status): (r: nat)
    ensures r <= |ts|
    ensures r == 0 <==> forall i :: 0 <= i < |ts| ==> ts[i].status != st
  {
    if |ts| == 0 then 0
    else CountStatus(ts[..|ts| - 1], st) + (if ts[|ts| - 1].status == st then 1 else 0)
  }

  /** Positions of the tickets in status `st`: what a `filter(status=st)`
      query selects. */
  ghost function WithStatus(ts: seq<Ticket>, st: Status): set<int> {
    set i | 0 <= i < |ts| && ts[i].status == st
  }

  /** The counter is the size of that selection. */
  lemma {:induction false} CountStatusIsCardinality(ts: seq<Ticket>, st: Status)
    ensures CountStatus(ts, st) == |WithStatus(ts, st)|
    decreases |ts|
  {
    if |ts| > 0 {
      var n := |ts| - 1;
      var init := ts[..n];
      CountStatusIsCardinality(init, st);
      WithStatusSnoc(ts, st);
      assert CountStatus(ts, st) == CountStatus(init, st) + (if ts[n].status == st then 1 else 0);
      if ts[n].status == st {
        assert n !in WithStatus(init, st);
        assert |WithStatus(ts, st)| == |WithStatus(init, st)| + 1;
      }
    }
  }

  /** Extending the list by one ticket adds at most its own position. */
  lemma WithStatusSnoc(ts: seq<Ticket>, st: Status)
    requires |ts| > 0
    ensures ts[|ts| - 1].status == st ==> WithStatus(ts, st) == WithStatus(ts[..|ts| - 1], st) + {|ts| - 1}
    ensures ts[|ts| - 1].status != st ==> WithStatus(ts, st) == WithStatus(ts[..|ts| - 1], st)
  {
    var n := |ts| - 1;
    var init := ts[..n];
    forall i | i in WithStatus(ts, st) && i != n ensures i in WithStatus(init, st) {
      assert init[i] == ts[i];
    }
    forall i | i in WithStatus(init, st) ensures i in WithStatus(ts, st) {
      assert init[i] == ts[i];
    }
  }

  /** Number of tickets in a live status. */
  function CountActive(ts: seq<Ticket>): (r: nat)
    ensures r <= |ts|
    ensures r == 0 <==> forall i :: 0 <= i < |ts| ==> !ts[i].status.IsActive()
  {
    if |ts| == 0 then 0
    else CountActive(ts[..|ts| - 1]) + (if ts[|ts| - 1].status.IsActive() then 1 else 0)
  }

  lemma {:induction false} ActiveIsSumOfLiveStatuses(ts: seq<Ticket>)
    ensures CountActive(ts) == CountStatus(ts, Open) + CountStatus(ts, Answered) + CountStatus(ts, Waiting)
    decreases |ts|
  {
    if |ts| > 0 {
      ActiveIsSumOfLiveStatuses(ts[..|ts| - 1]);
    }
  }
}

=== FILE: text.dfy ===
/** String helpers the bridge relies on from Python's standard library:
    `str.strip()`, `text.split('\n')[0]` and the decimal rendering of an
    integer inside an f-string. Strings are sequences of Unicode scalar
    values, so `|s|` agrees with Python's `len`. */
module Text {

  /** Python's `str.isspace` for a single character: the ASCII controls
      TAB..CR and FS..US, SPACE, NEL, NBSP and the Unicode space separators. */
  predicate IsSpace(c: char) {
    || c == ' '
    || ('\t' <= c <= '\r')
    || ('\U{1C}' <= c <= '\U{1F}')
    || c == '\U{85}'
    || c == '\U{A0}'
    || c == '\U{1680}'
    || ('\U{2000}' <= c <= '\U{200A}')
    || c == '\U{2028}'
    || c == '\U{2029}'
    || c == '\U{202F}'
    || c == '\U{205F}'
    || c == '\U{3000}'
  }

  predicate AllSpace(s: string) {
    forall k :: 0 <= k < |s| ==> IsSpace(s[k])
  }

  /** Neither end of `s` is whitespace (vacuously true of the empty string). */
  predicate Trimmed(s: string) {
    |s| == 0 || (!IsSpace(s[0]) && !IsSpace(s[|s| - 1]))
  }

  predicate NoNewline(s: string) {
    forall k :: 0 <= k < |s| ==> s[k] != '\n'
  }

  /** Drops leading whitespace. */
  function TrimStart(s: string): (r: string)
    ensures |r| <= |s| && r == s[|s| - |r|..]
    ensures forall k :: 0 <= k < |s| - |r| ==> IsSpace(s[k])
    ensures |r| > 0 ==> !IsSpace(r[0])
    decreases |s|
  {
    if |s| > 0 && IsSpace(s[0]) then TrimStart(s[1..]) else s
  }

  /** Drops trailing whitespace. */
  function TrimEnd(s: string): (r: string)
    ensures |r| <= |s| && r == s[..|r|]
    ensures forall k :: |r| <= k < |s| ==> IsSpace(s[k])
    ensures |r| > 0 ==> !IsSpace(r[|r| - 1])
    decreases |s|
  {
    if |s| > 0 && IsSpace(s[|s| - 1]) then TrimEnd(s[..|s| - 1]) else s
  }

  /** Python's `s.strip()` with no argument. */
  function Strip(s: string): (r: string)
    ensures Trimmed(r)
    ensures |r| <= |s|
    ensures |r| == 0 <==> AllSpace(s)
  {
    var a := TrimStart(s);
    var b := TrimEnd(a);
    assert Trimmed(b) && (|b| == 0 <==> AllSpace(s)) by { TrimBothEnds(s, a, b); }
    b
  }

  /** A whitespace-free start `a` of `s`, trimmed at the end to `b`, is
      trimmed at both ends, and empty exactly when `s` was all whitespace. */
  lemma TrimBothEnds(s: string, a: string, b: string)
    requires |a| <= |s| && a == s[|s| - |a|..]
    requires forall k :: 0 <= k < |s| - |a| ==> IsSpace(s[k])
    requires |a| > 0 ==> !IsSpace(a[0])
    requires |b| <= |a| && b == a[..|b|]
    requires forall k :: |b| <= k < |a| ==> IsSpace(a[k])
    requires |b| > 0 ==> !IsSpace(b[|b| - 1])
    ensures Trimmed(b)
    ensures |b| == 0 <==> AllSpace(s)
  {
    if |b| > 0 {
      assert b[0] == a[0] == s[|s| - |a|];
    }
  }

  lemma {:induction false} TrimStartOfSpaces(l: string, rest: string)
    requires AllSpace(l)
    requires |rest| == 0 || !IsSpace(rest[0])
    ensures TrimStart(l + rest) == rest
    decreases |l|
  {
    if |l| > 0 {
      assert (l + rest)[1..] == l[1..] + rest;
      TrimStartOfSpaces(l[1..], rest);
    } else {
      assert l + rest == rest;
    }
  }

  lemma {:induction false} TrimEndOfSpaces(core: string, r: string)
    requires AllSpace(r)
    requires |core| == 0 || !IsSpace(core[|core| - 1])
    ensures TrimEnd(core + r) == core
    decreases |r|
  {
    if |r| > 0 {
      assert (core + r)[..|core + r| - 1] == core + r[..|r| - 1];
      TrimEndOfSpaces(core, r[..|r| - 1]);
    } else {
      assert core + r == core;
    }
  }

  /** `Strip` is characterised independently of how it is computed: whatever
      whitespace surrounds a trimmed core, stripping yields exactly that core. */
  lemma StripOfPadded(l: string, core: string, r: string)
    requires AllSpace(l) && AllSpace(r) && Trimmed(core)
    ensures Strip(l + core + r) == core
  {
    if |core| > 0 {
      assert l + core + r == l + (core + r);
      assert (core + r)[0] == core[0];
      TrimStartOfSpaces(l, core + r);
      TrimEndOfSpaces(core, r);
    } else {
      assert l + core + r == l + r;
      assert AllSpace(l + r);
      TrimStartOfSpaces(l + r, []);
      assert l + r + [] == l + r;
    }
  }

  lemma StripTrimmed(s: string)
    requires Trimmed(s)
    ensures Strip(s) == s
  {
    StripOfPadded([], s, []);
    assert [] + s + [] == s;
  }

  /** `text.split('\n')[0]`: everything before the first line feed. */
  function FirstLine(text: string): (r: string)
    ensures |r| <= |text| && r == text[..|r|]
    ensures NoNewline(r)
    ensures |r| < |text| ==> text[|r|] == '\n'
  {
    if |text| == 0 || text[0] == '\n' then []
    else [text[0]] + FirstLine(text[1..])
  }

  lemma FirstLineOfSingleLine(s: string)
    requires NoNewline(s)
    ensures FirstLine(s) == s
  {
  }

  /** The first line ends exactly at the first line feed. */
  lemma {:induction false} FirstLineBeforeNewline(line: string, rest: string)
    requires NoNewline(line)
    ensures FirstLine(line + "\n" + rest) == line
    decreases |line|
  {
    var text := line + "\n" + rest;
    if |line| > 0 {
      assert text[0] == line[0];
      assert text[1..] == line[1..] + "\n" + rest;
      FirstLineBeforeNewline(line[1..], rest);
      assert [line[0]] + line[1..] == line;
    } else {
      assert text[0] == '\n';
    }
  }

  predicate IsDigit(c: char) {
    '0' <= c <= '9'
  }

  predicate AllDigits(s: string) {
    forall k :: 0 <= k < |s| ==> IsDigit(s[k])
  }

  function DigitChar(d: nat): (c: char)
    requires d < 10
    ensures IsDigit(c) && c as int - '0' as int == d
  {
    ('0' as int + d) as char
  }

  /** The value of a string of decimal digits, most significant first. */
  function DecimalValue(s: string): nat
    requires AllDigits(s)
  {
    if |s| == 0 then 0
    else DecimalValue(s[..|s| - 1]) * 10 + (s[|s| - 1] as int - '0' as int)
  }

  /** The decimal rendering of a natural number, as `str(n)` produces it:
      digits only, no leading zero, and reading it back gives `n`. */
  function NatToDecimal(n: nat): (r: string)
    ensures |r| >= 1 && AllDigits(r)
    ensures |r| > 1 ==> r[0] != '0'
    ensures DecimalValue(r) == n
  {
    if n < 10 then [DigitChar(n)]
    else
      var prefix := NatToDecimal(n / 10);
      var r := prefix + [DigitChar(n % 10)];
      assert r[..|r| - 1] == prefix;
      r
  }

  /** `str(i)` for any integer: a minus sign before the magnitude when negative. */
  function IntToDecimal(i: int): (r: string)
    ensures |r| >= 1
    ensures i < 0 <==> r[0] == '-'
    ensures i >= 0 ==> AllDigits(r) && DecimalValue(r) == i && (|r| > 1 ==> r[0] != '0')
    ensures i < 0 ==> |r| >= 2 && AllDigits(r[1..]) && DecimalValue(r[1..]) == -i && (|r| > 2 ==> r[1] != '0')
  {
    if i < 0 then
      var digits := NatToDecimal(-i);
      assert ("-" + digits)[1..] == digits;
      "-" + digits
    else NatToDecimal(i)
  }

  /** Distinct integers render as distinct strings. */
  lemma IntToDecimalInjective(a: int, b: int)
    requires IntToDecimal(a) == IntToDecimal(b)
    ensures a == b
  {
    var ra := IntToDecimal(a);
    if a < 0 {
      assert b < 0;
      assert ra[1..] == NatToDecimal(-a);
      assert IntToDecimal(b)[1..] == NatToDecimal(-b);
    } else {
      assert b >= 0;
    }
  }
}

=== FILE: views.dfy ===
/** The staff path: the ticket detail page with its five mutually exclusive
    form actions and its mark-as-read step, the bulk action on a selection
    of tickets, and the counters shown above the ticket list.

    The reply is delivered to the user through the platform's messaging API
    before anything is stored; its outcome is the boolean parameter `sent`.
    The clock is `now`, the acting staff member is `staff`. */
module Views {
  import opened Text
  import opened Models

  /* ---------------- the detail form ---------------- */

  /** The form keys the detail view tests, in the order it tests them. */
  const DetailKeys: seq<string> := ["response", "status", "assign_to_me", "tags", "priority"]

  /** The submitted detail form: for each key, whether it was sent and with
      what value (`tags` is the submitted list of tag ids). */
  datatype DetailForm = DetailForm(
    response: Option<string>,
    status: Option<string>,
    assignToMe: bool,
    tags: Option<seq<TagId>>,
    priority: Option<string>)
  {
    predicate Has(key: string) {
      if key == "response" then response.Some?
      else if key == "status" then status.Some?
      else if key == "assign_to_me" then assignToMe
      else if key == "tags" then tags.Some?
      else if key == "priority" then priority.Some?
      else false
    }
  }

  datatype Request = Get | Post(form: DetailForm)

  /** The one action a POST performs. */
  datatype Branch =
    | Reply(raw: string)
    | ChangeStatus(value: string)
    | AssignSelf
    | ReplaceTags(ids: seq<TagId>)
    | ChangePriority(value: string)
    | NoBranch
  {
    /** Position of the branch's key in `DetailKeys`; `NoBranch` comes last. */
    function Rank(): nat {
      match this
      case Reply(_) => 0
      case ChangeStatus(_) => 1
      case AssignSelf => 2
      case ReplaceTags(_) => 3
      case ChangePriority(_) => 4
      case NoBranch => 5
    }
  }

  /** The if/elif chain of the detail view: the first key of `DetailKeys`
      present in the form decides the action, and every later key is ignored. */
  function SelectBranch(f: DetailForm): (b: Branch)
    ensures b.Rank() <= |DetailKeys|
    ensures b.Rank() < |DetailKeys| ==> f.Has(DetailKeys[b.Rank()])
    ensures forall i :: 0 <= i < b.Rank() ==> !f.Has(DetailKeys[i])
    ensures b.Reply? ==> f.response == Some(b.raw)
    ensures b.ChangeStatus? ==> f.status == Some(b.value)
    ensures b.ReplaceTags? ==> f.tags == Some(b.ids)
    ensures b.ChangePriority? ==> f.priority == Some(b.value)
  {
    if f.response.Some? then Reply(f.response.value)
    else if f.status.Some? then ChangeStatus(f.status.value)
    else if f.assignToMe then AssignSelf
    else if f.tags.Some? then ReplaceTags(f.tags.value)
    else if f.priority.Some? then ChangePriority(f.priority.value)
    else NoBranch
  }

  /* ---------------- the five actions ---------------- */

  /** The staff reply. Blank replies and failed deliveries change nothing;
      otherwise one read staff message is stored, the ticket becomes
      `answered` and is assigned to the replying staff member. */
  function StaffReply(s: Store, k: nat, raw: string, staff: StaffId, now: nat, sent: bool): (r: Store)
    requires k < |s.tickets|
    ensures |Strip(raw)| == 0 || !sent ==> r == s
    ensures |Strip(raw)| > 0 && sent ==>
      RepliedTo(s, r, k, Message(k, None, Strip(raw), [], true, true, Some(staff), now),
                s.tickets[k].(status := Answered, admin := Some(staff), updatedAt := now))
    ensures GrowsByStaffMessages(s, r, k)
  {
    var text := Strip(raw);
    if |text| == 0 || !sent then s
    else
      var msg := Message(k, None, text, [], true, true, Some(staff), now);
      var r := ReplaceTicket(AppendMessage(s, msg), k, s.tickets[k].(status := Answered, admin := Some(staff), updatedAt := now));
      assert GrowsByStaffMessages(s, r, k) by { ReplyGrows(s, r, k, msg, r.tickets[k]); }
      r
  }

  /** `msg` was appended and ticket `k` replaced by `t`; nothing else changed. */
  ghost predicate RepliedTo(s: Store, r: Store, k: nat, msg: Message, t: Ticket) {
    && AppendedOne(s, r, msg)
    && OnlyTicketChanged(s, r, k)
    && k < |s.tickets| && r.tickets[k] == t
  }

  lemma ReplyGrows(s: Store, r: Store, k: nat, msg: Message, t: Ticket)
    requires RepliedTo(s, r, k, msg, t) && msg.isAdmin && msg.ticket == k
    ensures GrowsByStaffMessages(s, r, k)
  {
    forall i | 0 <= i < |s.messages| ensures r.messages[i] == s.messages[i] {
      assert r.messages[..|s.messages|][i] == r.messages[i];
    }
  }

  /** Earlier messages are kept and at most one staff message of ticket `k`
      is added; the other tickets are untouched. */
  ghost predicate GrowsByStaffMessages(s: Store, r: Store, k: nat) {
    && OnlyTicketChanged(s, r, k)
    && |s.messages| <= |r.messages| <= |s.messages| + 1
    && (forall i :: 0 <= i < |s.messages| ==> r.messages[i] == s.messages[i])
    && (forall i :: |s.messages| <= i < |r.messages| ==> r.messages[i].isAdmin && r.messages[i].ticket == k)
  }

  /** The explicit status form. It acts only on a non-empty value different
      from the current status; closing stamps `closedAt`, and no value ever
      clears it. */
  function ChangeStatusOf(t: Ticket, value: string, now: nat): (r: Ticket)
    ensures value == "" || value == t.status.Name() ==> r == t
    ensures value != "" && value != t.status.Name() ==>
      && r.status.Name() == value
      && r == t.(status := r.status, closedAt := r.closedAt)
      && (value == "closed" ==> r.closedAt == Some(now))
      && (value != "closed" ==> r.closedAt == t.closedAt)
    ensures t.closedAt.Some? ==> r.closedAt.Some?
    ensures r.status.Valid() || r == t
  {
    if value != "" && value != t.status.Name() then
      var t1 := t.(status := ParseStatus(value));
      if value == "closed" then t1.(closedAt := Some(now)) else t1
    else t
  }

  /** The tag form: the ticket's tags become exactly the submitted ids. */
  function ReplaceTagsOf(t: Ticket, ids: seq<TagId>): (r: Ticket)
    ensures forall x :: x in r.tags <==> x in ids
    ensures r == t.(tags := r.tags)
  {
    t.(tags := set x | x in ids)
  }

  /** The priority form: a non-empty value replaces the priority. */
  function ChangePriorityOf(t: Ticket, value: string): (r: Ticket)
    ensures value == "" ==> r == t
    ensures value != "" ==> r == t.(priority := value)
  {
    if value != "" then t.(priority := value) else t
  }

  function ReplaceTicket(s: Store, k: nat, t: Ticket): (r: Store)
    requires k < |s.tickets|
    ensures r.groups == s.groups && r.tagIds == s.tagIds && r.messages == s.messages
    ensures |r.tickets| == |s.tickets| && r.tickets[k] == t
    ensures forall j :: 0 <= j < |s.tickets| && j != k ==> r.tickets[j] == s.tickets[j]
  {
    s.(tickets := s.tickets[k := t])
  }

  /** Performs the chosen action on ticket `k`. Only a delivered reply adds a
      message; every other action changes ticket `k` alone, and assigning
      changes only its `admin`. */
  function ApplyBranch(s: Store, k: nat, b: Branch, staff: StaffId, now: nat, sent: bool): (r: Store)
    requires k < |s.tickets|
    ensures GrowsByStaffMessages(s, r, k)
    ensures !b.Reply? ==> r.messages == s.messages
    ensures b.Reply? ==> r == StaffReply(s, k, b.raw, staff, now, sent)
    ensures b.ChangeStatus? ==> r.tickets[k] == ChangeStatusOf(s.tickets[k], b.value, now)
    ensures b.AssignSelf? ==> r.tickets[k] == s.tickets[k].(admin := Some(staff))
    ensures b.ReplaceTags? ==> r.tickets[k] == ReplaceTagsOf(s.tickets[k], b.ids)
    ensures b.ChangePriority? ==> r.tickets[k] == ChangePriorityOf(s.tickets[k], b.value)
    ensures b.NoBranch? ==> r == s
  {
    var t := s.tickets[k];
    match b
    case Reply(raw) => StaffReply(s, k, raw, staff, now, sent)
    case ChangeStatus(value) => ReplaceTicket(s, k, ChangeStatusOf(t, value, now))
    case AssignSelf => ReplaceTicket(s, k, t.(admin := Some(staff)))
    case ReplaceTags(ids) => ReplaceTicket(s, k, ReplaceTagsOf(t, ids))
    case ChangePriority(value) => ReplaceTicket(s, k, ChangePriorityOf(t, value))
    case NoBranch => s
  }

  /* ---------------- mark as read ---------------- */

  /** `ticket.messages.filter(is_admin=False, is_read=False).update(is_read=True)`. */
  function MarkUserMessagesRead(ms: seq<Message>, k: nat): (r: seq<Message>)
    ensures |r| == |ms|
    ensures forall i :: 0 <= i < |ms| ==>
      r[i] == (if ms[i].ticket == k && !ms[i].isAdmin then ms[i].(isRead := true) else ms[i])
  {
    if |ms| == 0 then []
    else
      var m := ms[|ms| - 1];
      MarkUserMessagesRead(ms[..|ms| - 1], k) + [if m.ticket == k && !m.isAdmin then m.(isRead := true) else m]
  }

  /** Marking ticket `k` read removes exactly its unread messages from the
      global count and leaves it with none. */
  lemma {:induction false} MarkReadClearsTicket(ms: seq<Message>, k: nat)
    ensures UnreadFor(MarkUserMessagesRead(ms, k), k) == 0
    ensures TotalUnread(MarkUserMessagesRead(ms, k)) == TotalUnread(ms) - UnreadFor(ms, k)
    decreases |ms|
  {
    if |ms| > 0 {
      var init := ms[..|ms| - 1];
      var m := ms[|ms| - 1];
      var r := MarkUserMessagesRead(ms, k);
      MarkReadClearsTicket(init, k);
      assert r[..|ms| - 1] == MarkUserMessagesRead(init, k);
    }
  }

  /* ---------------- the detail view ---------------- */

  /** The message log after a view of ticket `k`: earlier messages are kept,
      except that user messages of `k` are now read; anything new is a staff
      message; and no user message of `k` is left unread. */
  ghost predicate LedgerAfterView(before: seq<Message>, after: seq<Message>, k: nat) {
    && |before| <= |after| <= |before| + 1
    && (forall i :: 0 <= i < |before| ==>
          || after[i] == before[i]
          || (before[i].ticket == k && !before[i].isAdmin && after[i] == before[i].(isRead := true)))
    && (forall i :: |before| <= i < |after| ==> after[i].isAdmin)
    && (forall i :: 0 <= i < |after| && after[i].ticket == k && !after[i].isAdmin ==> after[i].isRead)
  }

  /** What every view of ticket `k` leaves behind: only that ticket may have
      changed, the log is as `LedgerAfterView` allows, the ticket has no
      unread message, and the global total fell by its former count. */
  ghost predicate ViewedTicket(s: Store, after: Store, k: nat) {
    && OnlyTicketChanged(s, after, k)
    && LedgerAfterView(s.messages, after.messages, k)
    && UnreadFor(after.messages, k) == 0
    && TotalUnread(after.messages) == TotalUnread(s.messages) - UnreadFor(s.messages, k)
  }

  /** The detail view of the ticket at position `k`. Viewing lowers the global
      unread total by exactly that ticket's unread count: a staff reply never
      adds an unread message. */
  function ViewTicket(s: Store, k: nat, req: Request, staff: StaffId, now: nat, sent: bool): (after: Store)
    requires k < |s.tickets|
    ensures ViewedTicket(s, after, k)
    ensures req.Get? ==> after.tickets == s.tickets && |after.messages| == |s.messages|
    ensures after.tickets == Act(s, k, req, staff, now, sent).tickets
    ensures |after.messages| == |Act(s, k, req, staff, now, sent).messages|
    ensures forall i :: |s.messages| <= i < |after.messages| ==>
              after.messages[i] == Act(s, k, req, staff, now, sent).messages[i]
  {
    var s1 := Act(s, k, req, staff, now, sent);
    StaffMessagesKeepUnread(s, s1, k);
    MarkReadClearsTicket(s1.messages, k);
    MarkReadLedger(s.messages, s1.messages, k);
    s1.(messages := MarkUserMessagesRead(s1.messages, k))
  }

  /** The POST action, if any; a GET performs none. */
  function Act(s: Store, k: nat, req: Request, staff: StaffId, now: nat, sent: bool): (r: Store)
    requires k < |s.tickets|
    ensures GrowsByStaffMessages(s, r, k)
    ensures req.Get? ==> r == s
    ensures req.Post? ==> r == ApplyBranch(s, k, SelectBranch(req.form), staff, now, sent)
    ensures req.Post? && req.form.response.None? ==> r.messages == s.messages
    ensures req.Post? && req.form == DetailForm(None, None, false, None, None) ==> r == s
  {
    if req.Post? then ApplyBranch(s, k, SelectBranch(req.form), staff, now, sent) else s
  }

  /** Staff messages are never unread, so adding one changes no count. */
  lemma StaffMessagesKeepUnread(s: Store, s1: Store, k: nat)
    requires GrowsByStaffMessages(s, s1, k)
    ensures TotalUnread(s1.messages) == TotalUnread(s.messages)
    ensures UnreadFor(s1.messages, k) == UnreadFor(s.messages, k)
  {
    if |s1.messages| > |s.messages| {
      var m := s1.messages[|s.messages|];
      assert s1.messages == s.messages + [m];
      UnreadAppend(s.messages, m, k);
    } else {
      assert s1.messages == s.messages;
    }
  }

  lemma MarkReadLedger(before: seq<Message>, mid: seq<Message>, k: nat)
    requires |before| <= |mid| <= |before| + 1
    requires forall i :: 0 <= i < |before| ==> mid[i] == before[i]
    requires forall i :: |before| <= i < |mid| ==> mid[i].isAdmin
    ensures LedgerAfterView(before, MarkUserMessagesRead(mid, k), k)
    ensures forall i :: |before| <= i < |mid| ==> MarkUserMessagesRead(mid, k)[i] == mid[i]
  {
  }

  /** `ticket_detail`: 404 when no ticket has the id; otherwise the POST
      action (if any) followed, for GET and POST alike, by marking every user
      message of the ticket read. */
  function TicketDetail(s: Store, id: string, req: Request, staff: StaffId, now: nat, sent: bool): (r: Result<Store>)
    ensures r == Err(NotFound) <==> NoneWithId(s.tickets, id)
    ensures r == Err(MultipleFound) <==> DuplicatedId(s.tickets, id)
    ensures r.Ok? ==> exists k :: OnlyWithId(s.tickets, id, k)
    ensures forall k :: OnlyWithId(s.tickets, id, k) ==>
      && r == Ok(ViewTicket(s, k, req, staff, now, sent))
      && ViewedTicket(s, r.value, k)
  {
    match Locate(s.tickets, id)
    case Missing => Err(NotFound)
    case Ambiguous => Err(MultipleFound)
    case At(k) => Ok(ViewTicket(s, k, req, staff, now, sent))
  }

  /** A view keeps every message pointing at an existing ticket and every
      stored status a valid spelling. */
  lemma ViewTicketKeepsWellFormed(s: Store, k: nat, req: Request, staff: StaffId, now: nat, sent: bool)
    requires WellFormed(s) && k < |s.tickets|
    ensures WellFormed(ViewTicket(s, k, req, staff, now, sent))
  {
    ActKeepsValidStatus(s, k, req, staff, now, sent);
    WellFormedAfterView(s, Act(s, k, req, staff, now, sent), ViewTicket(s, k, req, staff, now, sent), k);
  }

  /** Every action leaves ticket `k` with a valid status. */
  lemma ActKeepsValidStatus(s: Store, k: nat, req: Request, staff: StaffId, now: nat, sent: bool)
    requires k < |s.tickets| && s.tickets[k].status.Valid()
    ensures Act(s, k, req, staff, now, sent).tickets[k].status.Valid()
  {
    if req.Post? {
      var b := SelectBranch(req.form);
      var r := ApplyBranch(s, k, b, staff, now, sent);
      if b.Reply? {
        assert r == StaffReply(s, k, b.raw, staff, now, sent);
      }
    }
  }

  lemma WellFormedAfterView(s: Store, s1: Store, after: Store, k: nat)
    requires WellFormed(s) && k < |s.tickets|
    requires GrowsByStaffMessages(s, s1, k) && s1.tickets[k].status.Valid()
    requires ViewedTicket(s, after, k) && after.tickets == s1.tickets
    requires |after.messages| == |s1.messages|
    requires forall i :: |s.messages| <= i < |after.messages| ==> after.messages[i] == s1.messages[i]
    ensures WellFormed(after)
  {
    forall i | 0 <= i < |after.messages| ensures after.messages[i].ticket < |after.tickets| {
      if i < |s.messages| {
        assert s.messages[i].ticket < |s.tickets|;
      } else {
        assert after.messages[i] == s1.messages[i];
      }
    }
  }

  lemma TicketDetailKeepsWellFormed(s: Store, id: string, req: Request, staff: StaffId, now: nat, sent: bool)
    requires WellFormed(s)
    ensures TicketDetail(s, id, req, staff, now, sent).Ok? ==> WellFormed(TicketDetail(s, id, req, staff, now, sent).value)
  {
    if Locate(s.tickets, id).At? {
      ViewTicketKeepsWellFormed(s, Locate(s.tickets, id).index, req, staff, now, sent);
    }
  }

  /** Only the first present key matters: a form reduced to that key alone
      has the same effect. */
  lemma LeadingKeyDecides(s: Store, id: string, f: DetailForm, staff: StaffId, now: nat, sent: bool)
    ensures var reduced :=
      if f.response.Some? then DetailForm(f.response, None, false, None, None)
      else if f.status.Some? then DetailForm(None, f.status, false, None, None)
      else if f.assignToMe then DetailForm(None, None, true, None, None)
      else if f.tags.Some? then DetailForm(None, None, false, f.tags, None)
      else DetailForm(None, None, false, None, f.priority);
      TicketDetail(s, id, Post(reduced), staff, now, sent) == TicketDetail(s, id, Post(f), staff, now, sent)
  {
    var reduced :=
      if f.response.Some? then DetailForm(f.response, None, false, None, None)
      else if f.status.Some? then DetailForm(None, f.status, false, None, None)
      else if f.assignToMe then DetailForm(None, None, true, None, None)
      else if f.tags.Some? then DetailForm(None, None, false, f.tags, None)
      else DetailForm(None, None, false, None, f.priority);
    assert SelectBranch(reduced) == SelectBranch(f);
    SameBranchSameDetail(s, id, reduced, f, staff, now, sent);
  }

  /** Two forms that select the same action give the same view. */
  lemma SameBranchSameDetail(s: Store, id: string, f: DetailForm, g: DetailForm, staff: StaffId, now: nat, sent: bool)
    requires SelectBranch(f) == SelectBranch(g)
    ensures TicketDetail(s, id, Post(f), staff, now, sent) == TicketDetail(s, id, Post(g), staff, now, sent)
  {
    if Locate(s.tickets, id).At? {
      var k := Locate(s.tickets, id).index;
      assert Act(s, k, Post(f), staff, now, sent) == Act(s, k, Post(g), staff, now, sent);
    }
  }


  /** Posting `status=closed` through the detail view closes a ticket whose
      stored status is not already `closed` and stamps its close time with
      now. */
  lemma DetailClosesTicket(s: Store, id: string, k: nat, f: DetailForm, staff: StaffId, now: nat, sent: bool)
    requires OnlyWithId(s.tickets, id, k) && s.tickets[k].status.Name() != "closed"
    requires f.response.None? && f.status == Some("closed")
    ensures var r := TicketDetail(s, id, Post(f), staff, now, sent);
            r.Ok? && r.value.tickets[k].status == Closed && r.value.tickets[k].closedAt == Some(now)
  {
    assert SelectBranch(f) == ChangeStatus("closed");
    var t' := ChangeStatusOf(s.tickets[k], "closed", now);
    StatusNameInjective(t'.status, Closed);
  }

  /** Posting `assign_to_me` through the detail view assigns the ticket to
      the requesting staff member. */
  lemma DetailAssignsStaff(s: Store, id: string, k: nat, f: DetailForm, staff: StaffId, now: nat, sent: bool)
    requires OnlyWithId(s.tickets, id, k)
    requires f.response.None? && f.status.None? && f.assignToMe
    ensures var r := TicketDetail(s, id, Post(f), staff, now, sent);
            r.Ok? && r.value.tickets[k] == s.tickets[k].(admin := Some(staff))
  {
    assert SelectBranch(f) == AssignSelf;
  }

  /** Posting a tag list through the detail view makes the ticket's tags
      exactly the submitted ids, and changes nothing else about it. */
  lemma DetailReplacesTags(s: Store, id: string, k: nat, f: DetailForm, staff: StaffId, now: nat, sent: bool)
    requires OnlyWithId(s.tickets, id, k)
    requires f.response.None? && f.status.None? && !f.assignToMe && f.tags.Some?
    ensures var r := TicketDetail(s, id, Post(f), staff, now, sent);
            && r.Ok?
            && (forall x :: x in r.value.tickets[k].tags <==> x in f.tags.value)
            && r.value.tickets[k] == s.tickets[k].(tags := r.value.tickets[k].tags)
  {
    assert SelectBranch(f) == ReplaceTags(f.tags.value);
  }

  /** A non-blank reply through the detail view: when delivered, the ticket
      is answered and assigned, and exactly one read staff message with the
      stripped text is stored; otherwise the ticket stays as it was and no
      message is stored. */
  lemma DetailReply(s: Store, id: string, k: nat, raw: string, staff: StaffId, now: nat, sent: bool)
    requires OnlyWithId(s.tickets, id, k)
    ensures var r := TicketDetail(s, id, Post(DetailForm(Some(raw), None, false, None, None)), staff, now, sent);
            && r.Ok?
            && (sent && |Strip(raw)| > 0 ==>
                  && r.value.tickets[k] == s.tickets[k].(status := Answered, admin := Some(staff), updatedAt := now)
                  && |r.value.messages| == |s.messages| + 1
                  && r.value.messages[|s.messages|] == Message(k, None, Strip(raw), [], true, true, Some(staff), now))
            && (!sent || |Strip(raw)| == 0 ==>
                  r.value.tickets == s.tickets && |r.value.messages| == |s.messages|)
  {
    var f := DetailForm(Some(raw), None, false, None, None);
    assert SelectBranch(f) == Reply(raw);
    var s1 := Act(s, k, Post(f), staff, now, sent);
    assert s1 == StaffReply(s, k, raw, staff, now, sent);
    if sent && |Strip(raw)| > 0 {
      var marked := MarkUserMessagesRead(s1.messages, k);
      assert marked[|s.messages|] == s1.messages[|s.messages|];
    }
  }

  /* ---------------- bulk action ---------------- */

  /** The bulk form: selected ticket ids, the action, and the action's
      argument. An absent field and an empty one are alike falsy here. */
  datatype BulkRequest =
    | BulkGet
    | BulkPost(ticketIds: seq<string>, action: string, newStatus: string, tagId: Option<TagId>)

  /** What a bulk action does to each selected ticket. */
  datatype BulkEdit =
    | AssignAll(staff: StaffId)
    | StatusAll(status: Status, stamp: Option<nat>)
    | TagAll(tag: TagId)

  /** One selected ticket under the edit: exactly the edited field changes
      (status and `closedAt` together), and `closedAt` changes only when the
      edit carries a stamp. */
  function EditTicket(t: Ticket, e: BulkEdit): (r: Ticket)
    ensures e.AssignAll? ==> r.admin == Some(e.staff) && r == t.(admin := r.admin)
    ensures e.StatusAll? ==>
      && r.status == e.status
      && r.closedAt == (if e.stamp.Some? then e.stamp else t.closedAt)
      && r == t.(status := r.status, closedAt := r.closedAt)
    ensures e.TagAll? ==> e.tag in r.tags && t.tags <= r.tags && r.tags - {e.tag} == t.tags - {e.tag}
                          && r == t.(tags := r.tags)
  {
    match e
    case AssignAll(staff) => t.(admin := Some(staff))
    case StatusAll(st, stamp) => t.(status := st, closedAt := if stamp.Some? then stamp else t.closedAt)
    case TagAll(tag) => t.(tags := t.tags + {tag})
  }

  /** `Ticket.objects.filter(ticket_id__in=ids)` followed by the edit. */
  function EditSelected(ts: seq<Ticket>, ids: seq<string>, e: BulkEdit): (r: seq<Ticket>)
    ensures |r| == |ts|
    ensures forall i :: 0 <= i < |ts| ==> r[i] == (if ts[i].ticketId in ids then EditTicket(ts[i], e) else ts[i])
  {
    seq(|ts|, i requires 0 <= i < |ts| => if ts[i].ticketId in ids then EditTicket(ts[i], e) else ts[i])
  }

  /** The edit a bulk request asks for, if any. */
  function BulkEditOf(req: BulkRequest, staff: StaffId, now: nat): (r: Option<BulkEdit>)
    ensures r.None? <==>
      || !req.BulkPost? || |req.ticketIds| == 0
      || req.action !in {"assign_to_me", "change_status", "add_tag"}
      || (req.action == "change_status" && req.newStatus == "")
      || (req.action == "add_tag" && req.tagId.None?)
    ensures r.Some? && r.value.AssignAll? ==> req.action == "assign_to_me" && r.value.staff == staff
    ensures r.Some? && r.value.StatusAll? ==>
      && req.action == "change_status"
      && r.value.status.Valid() && r.value.status.Name() == req.newStatus
      && (r.value.stamp.Some? <==> req.newStatus == "closed")
      && (r.value.stamp.Some? ==> r.value.stamp.value == now)
    ensures r.Some? && r.value.TagAll? ==> req.action == "add_tag" && req.tagId == Some(r.value.tag)
  {
    if !req.BulkPost? || |req.ticketIds| == 0 || req.action == "" then None
    else if req.action == "assign_to_me" then Some(AssignAll(staff))
    else if req.action == "change_status" then
      if req.newStatus == "" then None
      else Some(StatusAll(ParseStatus(req.newStatus), if req.newStatus == "closed" then Some(now) else None))
    else if req.action == "add_tag" then
      if req.tagId.None? then None else Some(TagAll(req.tagId.value))
    else None
  }

  /** `bulk_action`. Only tickets whose id was submitted change; an unknown
      tag is a 404 before anything is touched. */
  function BulkAction(s: Store, req: BulkRequest, staff: StaffId, now: nat): (r: Result<Store>)
    ensures r.Err? <==> && req.BulkPost? && |req.ticketIds| > 0 && req.action == "add_tag"
                        && req.tagId.Some? && req.tagId.value !in s.tagIds
    ensures r.Err? ==> r.error == NotFound
    ensures r.Ok? ==>
      && r.value.groups == s.groups && r.value.tagIds == s.tagIds && r.value.messages == s.messages
      && |r.value.tickets| == |s.tickets|
      && forall i :: 0 <= i < |s.tickets| && (!req.BulkPost? || s.tickets[i].ticketId !in req.ticketIds) ==>
           r.value.tickets[i] == s.tickets[i]
    ensures r.Ok? && req.BulkPost? && |req.ticketIds| > 0 ==> forall i :: 0 <= i < |s.tickets| && s.tickets[i].ticketId in req.ticketIds ==>
      var t := s.tickets[i];
      var t' := r.value.tickets[i];
      && (req.action == "assign_to_me" ==> t' == t.(admin := Some(staff)))
      && (req.action == "change_status" && req.newStatus != "" ==>
            && t'.status.Valid() && t'.status.Name() == req.newStatus
            && t'.closedAt == (if req.newStatus == "closed" then Some(now) else t.closedAt)
            && t' == t.(status := t'.status, closedAt := t'.closedAt))
      && (req.action == "change_status" && req.newStatus == "" ==> t' == t)
      && (req.action == "add_tag" && req.tagId.Some? ==> t' == t.(tags := t.tags + {req.tagId.value}))
      && (req.action == "add_tag" && req.tagId.None? ==> t' == t)
      && (req.action !in {"assign_to_me", "change_status", "add_tag"} ==> t' == t)
  {
    if req.BulkPost? && |req.ticketIds| > 0 && req.action == "add_tag"
       && req.tagId.Some? && req.tagId.value !in s.tagIds then Err(NotFound)
    else match BulkEditOf(req, staff, now)
      case None => Ok(s)
      case Some(e) => Ok(s.(tickets := EditSelected(s.tickets, req.ticketIds, e)))
  }

  /** A bulk action keeps every message pointing at an existing ticket and
      every stored status a valid spelling. */
  lemma BulkActionKeepsWellFormed(s: Store, req: BulkRequest, staff: StaffId, now: nat)
    requires WellFormed(s)
    ensures BulkAction(s, req, staff, now).Ok? ==> WellFormed(BulkAction(s, req, staff, now).value)
  {
  }

  /** Submitting the same bulk form twice at the same instant is the same as
      submitting it once; in particular adding a tag is idempotent. */
  lemma BulkActionIdempotent(s: Store, req: BulkRequest, staff: StaffId, now: nat)
    requires BulkAction(s, req, staff, now).Ok?
    ensures BulkAction(BulkAction(s, req, staff, now).value, req, staff, now) == BulkAction(s, req, staff, now)
  {
    var r := BulkAction(s, req, staff, now).value;
    match BulkEditOf(req, staff, now)
    case None =>
    case Some(e) =>
      var again := EditSelected(r.tickets, req.ticketIds, e);
      assert forall i :: 0 <= i < |r.tickets| ==> r.tickets[i].ticketId == s.tickets[i].ticketId;
      assert again == r.tickets;
  }

  /* ---------------- list counters ---------------- */

  datatype UnreadCounts = UnreadCounts(open: nat, answered: nat, waiting: nat, totalUnread: nat)

  /** `get_unread_counts`: tickets per live status and all unread user
      messages. The three status counters partition the live tickets, and
      the unread total is the sum of every ticket's own unread count. */
  function GetUnreadCounts(s: Store): (r: UnreadCounts)
    ensures r.open + r.answered + r.waiting == CountActive(s.tickets)
    ensures r.open == |WithStatus(s.tickets, Open)|
    ensures r.answered == |WithStatus(s.tickets, Answered)|
    ensures r.waiting == |WithStatus(s.tickets, Waiting)|
    ensures r.open == 0 <==> forall i :: 0 <= i < |s.tickets| ==> s.tickets[i].status != Open
    ensures WellFormed(s) ==> r.totalUnread == SumUnread(s.messages, |s.tickets|)
    ensures r.totalUnread == 0 <==> forall i :: 0 <= i < |s.messages| ==> s.messages[i].isAdmin || s.messages[i].isRead
  {
    ActiveIsSumOfLiveStatuses(s.tickets);
    CountStatusIsCardinality(s.tickets, Open);
    CountStatusIsCardinality(s.tickets, Answered);
    CountStatusIsCardinality(s.tickets, Waiting);
    assert WellFormed(s) ==> TotalUnread(s.messages) == SumUnread(s.messages, |s.tickets|) by {
      if WellFormed(s) {
        TotalUnreadIsSumPerTicket(s.messages, |s.tickets|);
      }
    }
    UnreadCounts(
      CountStatus(s.tickets, Open),
      CountStatus(s.tickets, Answered),
      CountStatus(s.tickets, Waiting),
      TotalUnread(s.messages))
  }
}
